=== FILE: README.md ===
# VN Music Academy backend: decision rules

This project is a Dafny model of the decision logic in the VN Music Academy
API server, an Express application whose data lives in a hosted Supabase
database, whose mail goes out through SMTP or Sendinblue, and whose payments
go through Razorpay. The handlers are thin, but each one follows a fixed
order of checks with fixed outcomes. The model states those rules as pure
functions and proves properties of them:

- **OTP login** (`Otp`, otp.dfy). A six-digit code is drawn and zero-padded.
  Records `{email, otp, otp_expires}` are appended to the `student_otps`
  store, modelled as a sequence in creation order. Verification reads only
  the newest record for the email. It checks expiry (strictly after
  `otp_expires`) before it compares the code. It never consumes the record.
  The handler signs the claim set `{id, email, name}`. A small state machine
  (`Step`/`Run`) serves sequences of requests and verifications.
- **Bearer-token gates** (`Auth`, auth.dfy). These are `authenticateAdmin`,
  `authenticateStudent` and `authenticate`. Each parses the
  `Authorization: Bearer <token>` header, then dispatches on the token's
  `type` claim and on account `status`. The gates differ in which failures
  answer 401 and which answer 403.
- **Attendance milestones** (`Attendance`, attendance.dfy). A session row is
  inserted, the student's sessions are counted and the student is fetched.
  The milestone mail goes out on every fourth session. Each store failure
  short-circuits. This is controllers/attendanceController.js, which no route
  mounts: `POST /attendance` in routes/adminRoutes.js uses the admin
  controller's handler, which has no milestone logic.
- **Contact form** (`Contact`, contact.dfy). There are two variants: the
  strict controller and the loose `/submit` route. Only the route is mounted.
- **Payments** (`Payment`, payment.dfy). Order creation checks the amount and
  builds the options. Signature verification compares
  HMAC-SHA256(secret, `order_id|payment_id`) with the supplied signature.
- **Server middleware** (`Server`, server.dfy). This covers the CORS origin
  callback, the 404 fallbacks and the global error handler.
- **Session** (session.dfy) holds lemmas that relate the OTP login to the
  gates.

`Js` and `Jwt` (js.dfy) model the JavaScript semantics the handlers rely on:
`undefined`, truthiness, `startsWith`, `includes`, and string concatenation
of `undefined`. `Decimal` (decimal.dfy) models `toString` and `padStart` on
integers.

Each handler's reply is a datatype whose `Status()` is the HTTP status.
Most handlers return it in an outcome record together with `calls`, the
external calls in the order made. The call trace is how the contracts say
"no lookup", "no insert" or "no mail".

- `Otp.RequestOtp`, `Attendance.MarkAttendance`, `Contact.HandleContactForm`
  and `Contact.SubmitContact` write to a table. Their outcome also carries
  the new table contents.
- `Otp.VerifyOtp`, `Payment.CreateOrder` and the three `Auth` gates return
  the reply and the call trace only.
- `Payment.VerifyPayment` and the `Server` functions return a bare reply.
  They make no external call except the HMAC, which is a parameter.

External services are parameters:

- Database query results are `Option`/`Result` inputs or lookup functions.
- `jwt.verify` is a function `(token, key) -> Option<Claims>`.
- HMAC-SHA256 is a function `(string, string) -> string`.
- The Razorpay order API is a function from options to `Result`.
- `Math.random()` is a draw `n < 10^6`.
- `Date.now()` is an integer clock in milliseconds.
- Environment variables (`OTP_EXPIRY_MINUTES`, `JWT_SECRET`, `FRONTEND_URL`,
  `NODE_ENV`, `RAZORPAY_KEY_SECRET`) are inputs.
- `JWT_SECRET` is read in two ways. `verifyOtp` signs with it as is, and
  crashes when it is unset. The three gates verify with
  `JWT_SECRET || 'your-secret-key'` (`Auth.SigningKey`). So with the
  variable unset, the gates accept tokens signed with that key, which is
  written in the source.

Some behaviour of the code is easy to misread; the model follows the code:

- Order creation rejects only a missing or zero amount. A negative amount
  reaches the gateway.
- `milestoneReached` is `count % 4 == 0`, without the `count > 0` guard the
  mail decision has.
- The mounted contact route does not require a subject; only the unmounted
  controller does.
- A missing OTP record, or a failing query for it, answers 400 "OTP not
  found".

## Model

| member | source | states |
|---|---|---|
| Decimal.ToDecimal | controllers/studentController.js:27-28 | for a safe integer n (at most 2^53 - 1), `n.toString()` is a non-empty digit string with no leading zero whose value is `n` |
| Decimal.ToDecimalLength | controllers/studentController.js:27-28 | a draw below 10^k has a numeral of at most k digits |
| Decimal.LeadingZeros | controllers/studentController.js:29 | zero padding keeps the string numeric and does not change its value |
| Otp.GenerateOtp | controllers/studentController.js:26-30 | for length at most 15 and a draw n < 10^length the code is all digits, has value n, and has exactly `length` characters (1 when length is 0, since `padStart` never shortens "0") |
| Otp.GenerateOtpInjective | controllers/studentController.js:26-30 | distinct draws give distinct codes |
| Otp.RequestOtp | controllers/studentController.js:35-87 | a missing email gives 400 with no lookup and no store change; an unknown student gives 404 with only the lookup; a missing expiry setting gives 500 after the lookup alone; a failed insert gives 500 "Failed to save OTP" (iff) with no mail and no record; otherwise the calls are lookup, insert, and the mail of the stored code; the store is unchanged or gains exactly one record, with expiry now + minutes*60000, after the old ones; the mail follows the insert and carries its code; a mail failure gives 500 and the record stays; "Server error" iff the expiry setting is missing or the mail fails; success iff lookup, expiry, insert and mail all succeed |
| Otp.LatestFor | controllers/studentController.js:100-107 | none iff no record has the email; otherwise a record for the email with no later record for it |
| Otp.VerifyOtp | controllers/studentController.js:92-151 | missing email or code gives 400 with no calls; "OTP not found" iff the query fails or finds no record; "OTP expired" iff the newest record is expired, even when the code matches; "Invalid OTP" iff unexpired and different; 500 iff the code matches but the profile is missing or `JWT_SECRET` is unset or empty; login iff unexpired, equal, the profile exists and the secret is set; the three rejections make exactly the one latest-record query (no insert, no mail); a match adds exactly the profile lookup by the same email; the claims are exactly the profile's id, email and name, with lifetime "1h" |
| Otp.RunAppendOnly | controllers/studentController.js:61-63 | serving any events keeps the old store as a prefix, and every stored code is six digits |
| Otp.VerifiesLeaveStore | controllers/studentController.js:92-151 | verifications never change the store |
| Otp.CodeNotConsumed | controllers/studentController.js:114-121 | after a successful verify, the same code succeeds again after any verifications, at any instant up to its expiry |
| Otp.AppendedIsLatest | controllers/studentController.js:101-107 | the record a request appends is the one verification reads |
| Otp.RequestThenVerify | controllers/studentController.js:55-139 | a successful request mails the code, and verifying that code no later than the expiry, with `JWT_SECRET` set, logs in with the profile's {id, email, name} |
| Otp.SupersededCodeRejected | controllers/studentController.js:101-121 | after a second request with a different draw, the first code is rejected as invalid while the second is unexpired |
| Auth.BearerToken | middleware/authMiddleware.js:10-17 | a token exists iff the header starts with "Bearer " (case-sensitive), and the header is the prefix followed by the token |
| Auth.BearerRoundTrip | middleware/authMiddleware.js:17 | stripping the 7-character prefix from "Bearer " + t gives t |
| Auth.LowerCaseSchemeRejected | middleware/authMiddleware.js:10 | a "bearer " header carries no token |
| Auth.AuthenticateAdmin | middleware/authMiddleware.js:6-67 | no bearer header: 401 with no calls; the token verified is the header minus 7 characters, with `JWT_SECRET` or the fallback key; verify failure: 401 after the verification alone; non-admin type: 403 with no lookup; missing admin: 401; inactive admin: 403; `next` iff all pass, with `req.admin` the row; denials are only 401 or 403 |
| Auth.AuthenticateStudent | middleware/authMiddleware.js:70-136 | the same decision tree and call traces for students; on success `req.student` is exactly {studentId, email, name, status} of the row |
| Auth.Authenticate | middleware/authMiddleware.js:139-219 | a verify failure gives 401 after the verification alone; an admin or student token makes exactly the verification and the lookup of its own kind; a missing or inactive account gives 401, never 403; a type other than admin or student gives 403 with no lookup; 403 iff the token verified with an unknown type; `next` with `req.user` tagged by type |
| Auth.GeneralAgreesWithAdminGate | middleware/authMiddleware.js:155-171 | for an admin token the general gate admits iff the admin gate does, attaching the same `req.admin` |
| Auth.GeneralAgreesWithStudentGate | middleware/authMiddleware.js:173-194 | for a student token the general gate admits iff the student gate does, attaching the same `req.student` |
| Auth.InactiveAccountStatusDiffers | middleware/authMiddleware.js:107-112 | an inactive student gets 403 from the student gate but 401 from the general gate |
| Auth.DefaultKeyTokenAdmitted | middleware/authMiddleware.js:20-51 | with `JWT_SECRET` unset or empty, a token signed with "your-secret-key" carrying `type: "admin"` and an active admin's id passes the admin gate as that admin |
| Attendance.FlagAndMailDisagreeOnlyAtZero | controllers/attendanceController.js:50-60 | the reported flag and the mail rule differ exactly at count 0 |
| Attendance.MarkAttendance | controllers/attendanceController.js:5-68 | an insert error gives 400 with no count, lookup or mail; a count or student error gives 400 with no mail; on success the calls are exactly insert, count and student lookup, then the mail when due; the mail is sent iff every query succeeded and the new count is a positive multiple of 4, once, last, to the fetched student; `totalSessions` is the old count plus one and `milestoneReached` is `count % 4 == 0` |
| Attendance.FlagMatchesMailInHandler | controllers/attendanceController.js:50-61 | inside the handler the count includes the new row, so the flag agrees with the mail |
| Attendance.AppendCounts | controllers/attendanceController.js:23-26 | inserting a row for the student adds one to the counted value |
| Attendance.MilestoneStep | controllers/attendanceController.js:50 | going from count m-1 to m passes a multiple of 4 iff the mail is due at m |
| Attendance.MailsAdvance | controllers/attendanceController.js:50 | one more call adds a mail exactly when it reaches a multiple of 4, keeping the mail total at (c+n)/4 - c/4 |
| Attendance.CheckInsMilestones | controllers/attendanceController.js:50-52 | after n calls of a handler obeying the milestone rule, the count grows by n and the mail fired (c+n)/4 - c/4 times |
| Attendance.SuccessfulCheckIn | controllers/attendanceController.js:9-56 | a call with no failures stores the row and mails iff the new count is due |
| Attendance.SucceedingIsMilestoneHandler | controllers/attendanceController.js:9-56 | the handler with no failures obeys the milestone rule on every table |
| Attendance.MailsFromNoHistory | controllers/attendanceController.js:50 | from an empty table, n calls mail floor(n/4) times |
| Attendance.FromEmptyHistory | controllers/attendanceController.js:50-52 | successive successful calls with counts 1..n send the milestone mail exactly floor(n/4) times |
| Contact.MessageRow | controllers/contactController.js:48-61 | the stored row keeps phone and subject as given; `preferred_contact` is null exactly when it was absent or empty |
| Contact.HandleContactForm | controllers/contactController.js:24-132 | a falsy name, email, subject or message gives 400 with no insert or mail; a truthy `preferred_contact` outside {email, phone, whatsapp} gives 400; 400 iff either check fails; an insert failure gives 500 with no mail and no row; a mail failure gives 500 with the row stored; 201 iff all succeed, returning the inserted row |
| Contact.ContactRowOf | routes/contactRoutes.js:11-19 | the route stores subject, phone and `preferred_contact` exactly as given |
| Contact.SubmitContact | routes/contactRoutes.js:7-31 | a falsy name, email or message gives 400 with no insert; otherwise one insert; an insert error gives 500 with no row; 200 iff inserted |
| Contact.RouteAcceptsWhatControllerAccepts | routes/contactRoutes.js:13 | every form that passes the controller's validation passes the route's |
| Contact.RouteIsStrictlyWeaker | routes/contactRoutes.js:13-19 | a form without a subject, or with `preferred_contact` "fax", is stored by the route and refused by the controller |
| Contact.BothRefuseMissingCoreFields | controllers/contactController.js:29-34 | both variants refuse a form lacking name, email or message, touching nothing |
| Payment.CreateOrder | controllers/paymentController.js:10-31 | for any clock value `Date.now()` can return, a missing or zero amount gives 400 with no gateway call; otherwise exactly one order request with amount*100 paise, currency "INR", and a receipt "receipt_" whose digits, with no leading zero, read back as the clock; 200 with the gateway's order iff it succeeds, and 500 with its message iff it fails |
| Payment.NegativeAmountReachesGateway | controllers/paymentController.js:14-19 | a negative amount is not rejected and reaches the gateway as negative paise |
| Payment.VerifyPayment | controllers/paymentController.js:34-53 | with a secret, verified iff the signature equals HMAC(secret, orderId + "\|" + paymentId); without one, 500 |
| Payment.SignedMessageInjective | controllers/paymentController.js:39-42 | for ids without "\|" the signed message determines both ids |
| Payment.SeparatorAmbiguity | controllers/paymentController.js:39-48 | the pairs ("a\|b", "c") and ("a", "b\|c") sign the same message, so one signature verifies both |
| Server.CorsOrigin | server.js:21-38 | a missing or empty origin is allowed; an origin is allowed iff it is `FRONTEND_URL` (or "http://localhost:5173" when that is unset) or "http://localhost:3001"; otherwise the error "CORS not allowed from this origin" |
| Server.HandleError | server.js:138-154 | 403 iff the message contains "CORS not allowed"; otherwise `error.status`, or 500 when absent or 0; the stack is included iff `NODE_ENV` is "development" |
| Server.BlockedOriginGets403 | server.js:27-147 | an origin the CORS callback blocks is answered 403 by the error handler |
| Server.Unmatched | server.js:110-135 | an unmatched request gets the API 404 iff its path is under "/api/" (matched without regard to case), else the general 404 |
| Server.ApiPathsGetApiNotFound | server.js:110 | every "/api/..." path, in either case, gets the API 404 |
| Server.MatchIgnoresCase | server.js:110-135 | every path gets the same fallback as its lower-cased form |
| Session.SessionClaimsUntyped | controllers/studentController.js:131-139 | the login claims have keys {id, email, name}, with no `type` or `studentId` |
| Session.LoginTokenRefusedByGates | middleware/authMiddleware.js:84-91 | a token decoding to the login claims is refused with 403 by all three gates, after verification only |
| Session.OtpLoginCannotPassStudentGate | controllers/studentController.js:131-139 | the token of any successful OTP login, sent as "Bearer <token>", is refused 403 by the student gate |
| Session.StudentClaimsPassStudentGate | middleware/authMiddleware.js:86-120 | a token whose claims add `type: "student"` and `studentId` opens the student gate for an active student |

## Findings

| source | as written | input that shows it | evidently intended | confidence | as-written member | corrected member |
|---|---|---|---|---|---|---|
| controllers/studentController.js:131-139 | the OTP login signs `{id, email, name}`, but the student gates require `type == "student"` and look the student up by `studentId` | any successful OTP login, whose token is then sent to `authenticateStudent` or `authenticate`: 403 | the login token should carry `type: "student"` and `studentId` so that the student gates admit it | medium, not executed (no route in the repository mounts the student gates yet) | Session.LoginTokenRefusedByGates | Session.StudentClaimsPassStudentGate |

## Left out

- Mail delivery is left out. It is modelled as a call in the trace. For
  OTP and contact mail a `mailOk`/`mailError` input says whether it failed.
  The milestone mail's failures are swallowed by utils/mailer.js. Templates
  and utils/sendEmail.js are not part of this model.
- controllers/adminController.js and the route files other than
  routes/contactRoutes.js are left out. They forward request bodies to the
  database or wire paths to handlers.
- Supabase query semantics are left out. Each query's result is an input or
  a lookup function. `.single()` failing on zero or several rows counts as
  "not found". The OTP table's `created_at` order is the order of the
  sequence, so ties cannot arise.
- JWT signing and verification and HMAC-SHA256 are left out. They are
  function parameters.
- `Math.random()` is left out: the draw is an input below 10^6.
- Wall-clock `Date` values are integer milliseconds. ISO strings round-trip
  exactly. The `Date` range limit of 8.64e15 ms is modelled only as the
  bound on `Date.now()` in `Payment.CreateOrder`. It is not modelled for the
  OTP expiry `now + minutes*60000`, where exceeding it would make
  `toISOString` throw.
- Otp.RequestOtp: `OTP_EXPIRY_MINUTES` is an integer or absent. A
  fractional value is not modelled. An absent or non-numeric value makes
  `toISOString` throw, which is modelled as 500.
- Decimal.ToDecimal: only safe integers (at most 2^53 - 1) are rendered.
  Beyond that `toString()` prints the shortest round-trip digits, and from
  10^21 it prints exponent form. Neither is modelled. Every caller stays in
  range: the OTP draw is below 10^6, and `Date.now()` is at most 8.64e15.
- Otp.GenerateOtp: only lengths up to 15 are modelled, so every draw is a
  safe integer. The handler always uses length 6.
- Payment.CreateOrder: the amount is an integer number of rupees. A string
  amount coerced by `*` and floating-point products are not modelled.
- Request fields are strings or absent. JSON numbers, booleans or objects in
  string fields are not modelled. For example, a numeric `otp` never equals
  the stored string.
- Auth.AuthenticateAdmin: the outer `catch` (500 "Authentication error")
  is not modelled. It is unreachable for a string header. The inner `catch`
  would also turn a synchronous throw from `next()` into a 401 after `next`
  ran. That case is not modelled, because `next` is opaque here.
- Concurrency is left out. This includes the insert-then-count race between
  simultaneous attendance calls and simultaneous verifications.
- Server.Unmatched: only the two fallbacks are modelled, for a request no
  earlier route handled. Express's full routing table is not modelled.
- Server.CorsOrigin: the `cors` package's header handling is not modelled.
  Only the origin decision is.
- Server startup, logging, the root, `/health` and `/api` info endpoints are
  left out. They are static JSON.

=== FILE: attendance.dfy ===
/** `markAttendance` (controllers/attendanceController.js): insert a session,
    recount the student's sessions, fetch the student, and send the
    milestone mail on every fourth session. */
module Attendance {
  import opened Js

  /** Sessions between milestone mails. */
  const MILESTONE_EVERY: nat := 4

  /** A row of the `attendance` table, as the request body supplies it. */
  datatype AttendanceRow = AttendanceRow(studentId: string, date: string, timing: string,
                                         status: string, sessionName: string)

  /** The `students` columns `name, email`. */
  datatype StudentInfo = StudentInfo(name: string, email: string)

  datatype Call =
    | InsertAttendance(row: AttendanceRow)
    | CountSessions(studentId: string)
    | FetchStudent(studentId: string)
    | SendMilestoneMail(to: string, name: string, count: nat)

  datatype Reply =
    | Marked(milestoneReached: bool, totalSessions: nat, attendance: AttendanceRow)  // 201
    | StoreError(message: string)                                                  // 400
  {
    function Status(): int
    {
      if Marked? then 201 else 400
    }
  }

  datatype MarkOutcome = MarkOutcome(reply: Reply, table: seq<AttendanceRow>, calls: seq<Call>)

  /** The exact row count the `count` query returns for one student. */
  function CountFor(table: seq<AttendanceRow>, studentId: string): nat
  {
    if table == [] then 0
    else CountFor(table[..|table| - 1], studentId)
         + (if table[|table| - 1].studentId == studentId then 1 else 0)
  }

  /** The condition under which the mail is sent. */
  predicate MailDue(count: int)
  {
    count > 0 && count % MILESTONE_EVERY == 0
  }

  /** The `milestoneReached` flag of the reply: no `count > 0` guard. */
  predicate FlagRaised(count: int)
  {
    count % MILESTONE_EVERY == 0
  }

  /** The two rules agree on every count except 0, where the flag is raised
      and no mail is sent. */
  lemma FlagAndMailDisagreeOnlyAtZero(count: nat)
    ensures FlagRaised(count) != MailDue(count) <==> count == 0
  {
  }

  /** The call trace contains a milestone mail. */
  predicate MailSent(calls: seq<Call>)
  {
    exists i :: 0 <= i < |calls| && calls[i].SendMilestoneMail?
  }

  /** `markAttendance`. `insertError`, `countError` and `student` are what
      the three queries return; the count itself is read off the table. The
      mail is best-effort: its failures are swallowed by the mailer. */
  function MarkAttendance(row: AttendanceRow, table: seq<AttendanceRow>, insertError: Option<string>,
                          countError: Option<string>, student: Result<StudentInfo>): (out: MarkOutcome)
    // An insert error stops everything: no count, no lookup, no mail.
    ensures insertError.Some? ==>
              out == MarkOutcome(StoreError(insertError.value), table, [InsertAttendance(row)])
    // Otherwise the row is stored, whatever happens next.
    ensures insertError.None? ==> out.table == table + [row]
    ensures insertError.None? && countError.Some? ==>
              out.reply == StoreError(countError.value)
              && out.calls == [InsertAttendance(row), CountSessions(row.studentId)]
    ensures insertError.None? && countError.None? && student.Err? ==>
              out.reply == StoreError(student.message)
              && out.calls == [InsertAttendance(row), CountSessions(row.studentId), FetchStudent(row.studentId)]
    // The mail goes out exactly when every query succeeded and the new
    // count is a positive multiple of four, to the fetched address.
    ensures MailSent(out.calls) <==>
              insertError.None? && countError.None? && student.Ok?
              && MailDue(CountFor(table + [row], row.studentId))
    ensures MailSent(out.calls) ==>
              (forall i :: 0 <= i < |out.calls| - 1 ==> !out.calls[i].SendMilestoneMail?)
              && out.calls[|out.calls| - 1]
              == SendMilestoneMail(student.value.email, student.value.name, CountFor(table + [row], row.studentId))
    // On success the three queries run in order, followed by the mail when due.
    ensures insertError.None? && countError.None? && student.Ok? ==>
              out.calls == [InsertAttendance(row), CountSessions(row.studentId), FetchStudent(row.studentId)]
                           + (if MailDue(CountFor(table + [row], row.studentId))
                              then [SendMilestoneMail(student.value.email, student.value.name,
                                                      CountFor(table + [row], row.studentId))]
                              else [])
    // The reply reports the count including the new row, and the flag.
    ensures out.reply.Marked? <==> insertError.None? && countError.None? && student.Ok?
    ensures out.reply.Marked? ==>
              out.reply.totalSessions == CountFor(table, row.studentId) + 1
              && out.reply.milestoneReached == FlagRaised(out.reply.totalSessions)
              && out.reply.attendance == row
  {
    if insertError.Some? then MarkOutcome(StoreError(insertError.value), table, [InsertAttendance(row)])
    else
      var stored := table + [row];
      assert stored[..|stored| - 1] == table;
      var counted := [InsertAttendance(row), CountSessions(row.studentId)];
      if countError.Some? then MarkOutcome(StoreError(countError.value), stored, counted)
      else
        var count := CountFor(stored, row.studentId);
        var fetched := counted + [FetchStudent(row.studentId)];
        match student
        case Err(message) => MarkOutcome(StoreError(message), stored, fetched)
        case Ok(info) =>
          var mail := SendMilestoneMail(info.email, info.name, count);
          var calls := if MailDue(count) then fetched + [mail] else fetched;
          assert MailDue(count) ==> calls[3] == mail;
          MarkOutcome(Marked(FlagRaised(count), count, row), stored, calls)
  }

  /** Inside the handler the count includes the row just inserted, so it is
      never 0 and the reported flag always agrees with the mail decision. */
  lemma FlagMatchesMailInHandler(row: AttendanceRow, table: seq<AttendanceRow>, student: StudentInfo)
    ensures var out := MarkAttendance(row, table, None, None, Ok(student));
            out.reply.milestoneReached <==> MailSent(out.calls)
  {
  }

  /** The table and the number of mails after `n` successive calls of
      `handler`, each on the table the previous call left. */
  datatype Tally = Tally(table: seq<AttendanceRow>, mails: nat)

  function CheckIns(handler: seq<AttendanceRow> -> MarkOutcome, table: seq<AttendanceRow>, n: nat): Tally
  {
    if n == 0 then Tally(table, 0)
    else
      var before := CheckIns(handler, table, n - 1);
      var out := handler(before.table);
      Tally(out.table, before.mails + if MailSent(out.calls) then 1 else 0)
  }

  /** On table `t`, `handler` stores `row` and mails exactly when the new
      count for its student is due one. */
  ghost predicate StepOk(handler: seq<AttendanceRow> -> MarkOutcome, row: AttendanceRow, t: seq<AttendanceRow>)
  {
    handler(t).table == t + [row]
    && (MailSent(handler(t).calls) <==> MailDue(CountFor(t, row.studentId) + 1))
  }

  /** A handler that does so on every table. */
  ghost predicate MilestoneHandler(handler: seq<AttendanceRow> -> MarkOutcome, row: AttendanceRow)
  {
    forall t :: StepOk(handler, row, t)
  }

  /** After `n` calls of such a handler the count has grown by `n`, and the
      mail has fired once for every multiple of four passed. */
  lemma {:induction false} CheckInsMilestones(handler: seq<AttendanceRow> -> MarkOutcome, row: AttendanceRow,
                                               table: seq<AttendanceRow>, n: nat)
    requires MilestoneHandler(handler, row)
    ensures CountFor(CheckIns(handler, table, n).table, row.studentId)
            == CountFor(table, row.studentId) + n
    ensures CheckIns(handler, table, n).mails
            == (CountFor(table, row.studentId) + n) / MILESTONE_EVERY
               - CountFor(table, row.studentId) / MILESTONE_EVERY
  {
    if n > 0 {
      CheckInsMilestones(handler, row, table, n - 1);
      var before := CheckIns(handler, table, n - 1);
      var out := handler(before.table);
      assert CheckIns(handler, table, n) == Tally(out.table, before.mails + if MailSent(out.calls) then 1 else 0);
      assert StepOk(handler, row, before.table);
      AppendCounts(before.table, row);
      MailsAdvance(CountFor(table, row.studentId), n, before.mails, MailSent(out.calls));
    }
  }

  /** The mail count after `n` calls, from the count after `n - 1`. */
  lemma MailsAdvance(c: nat, n: nat, previous: nat, sent: bool)
    requires n >= 1
    requires previous == (c + n - 1) / MILESTONE_EVERY - c / MILESTONE_EVERY
    requires sent <==> MailDue(c + n)
    ensures previous + (if sent then 1 else 0) == (c + n) / MILESTONE_EVERY - c / MILESTONE_EVERY
  {
    MilestoneStep(c + n);
  }

  /** Appending a row for a student adds one to that student's count. */
  lemma AppendCounts(table: seq<AttendanceRow>, row: AttendanceRow)
    ensures CountFor(table + [row], row.studentId) == CountFor(table, row.studentId) + 1
  {
    assert (table + [row])[..|table|] == table;
  }

  /** Passing from `m - 1` to `m` crosses a multiple of four exactly when the
      mail is due at `m`. */
  lemma MilestoneStep(m: nat)
    requires m >= 1
    ensures m / MILESTONE_EVERY == (m - 1) / MILESTONE_EVERY + (if MailDue(m) then 1 else 0)
  {
  }

  /** `markAttendance` for `row` when every query succeeds. */
  function Succeeding(row: AttendanceRow, student: StudentInfo): seq<AttendanceRow> -> MarkOutcome
  {
    t => MarkAttendance(row, t, None, None, Ok(student))
  }

  lemma SucceedingIsMilestoneHandler(row: AttendanceRow, student: StudentInfo)
    ensures MilestoneHandler(Succeeding(row, student), row)
  {
    forall t ensures StepOk(Succeeding(row, student), row, t) {
      SuccessfulCheckIn(row, student, t);
    }
  }

  /** Successful check-ins of one student with no earlier sessions: after
      `n` of them the milestone mail has fired exactly floor(n / 4) times. */
  lemma FromEmptyHistory(row: AttendanceRow, student: StudentInfo, n: nat)
    ensures CheckIns(Succeeding(row, student), [], n).mails == n / MILESTONE_EVERY
  {
    SucceedingIsMilestoneHandler(row, student);
    MailsFromNoHistory(Succeeding(row, student), row, n);
  }

  lemma MailsFromNoHistory(handler: seq<AttendanceRow> -> MarkOutcome, row: AttendanceRow, n: nat)
    requires MilestoneHandler(handler, row)
    ensures CheckIns(handler, [], n).mails == n / MILESTONE_EVERY
  {
    CheckInsMilestones(handler, row, [], n);
    var c := CountFor([], row.studentId);
    assert c == 0;
    assert (c + n) / MILESTONE_EVERY - c / MILESTONE_EVERY == n / MILESTONE_EVERY;
  }

  /** A successful call stores the row and mails exactly on a due count. */
  lemma SuccessfulCheckIn(row: AttendanceRow, student: StudentInfo, t: seq<AttendanceRow>)
    ensures var out := MarkAttendance(row, t, None, None, Ok(student));
            out.table == t + [row]
            && (MailSent(out.calls) <==> MailDue(CountFor(t, row.studentId) + 1))
  {
    AppendCounts(t, row);
  }
}

=== FILE: auth.dfy ===
/** The three bearer-token gates of middleware/authMiddleware.js:
    `authenticateAdmin`, `authenticateStudent` and `authenticate`.
    Token verification and the database lookups are oracles passed in;
    `JWT_SECRET` is an input, with the source's hard-coded fallback key. */
module Auth {
  import opened Js
  import opened Jwt

  /** The credential prefix of the `Authorization` header (section 2.1 of
      RFC 6750), matched case-sensitively, space included. */
  const BEARER_PREFIX: string := "Bearer "
  const ACTIVE: string := "active"

  /** The key every gate verifies with when `JWT_SECRET` is unset or empty. */
  const DEFAULT_JWT_SECRET: string := "your-secret-key"

  const UNAUTHORIZED: int := 401
  const FORBIDDEN: int := 403

  const TOKEN_REQUIRED: string := "Access token required"
  const TOKEN_INVALID: string := "Invalid or expired token"
  const ADMIN_REQUIRED: string := "Admin access required"
  const ADMIN_NOT_FOUND: string := "Invalid token or admin not found"
  const ADMIN_INACTIVE: string := "Admin account is not active"
  const STUDENT_REQUIRED: string := "Student access required"
  const STUDENT_NOT_FOUND: string := "Invalid token or student not found"
  const STUDENT_INACTIVE: string := "Student account is not active"
  const UNKNOWN_TYPE: string := "Invalid user type"

  /** `admins` columns `id, email, name, role, status`. */
  datatype AdminRow = AdminRow(id: string, email: string, name: string, role: string, status: string)
  /** `students` columns `id, email, name, status`. */
  datatype StudentRow = StudentRow(id: string, email: string, name: string, status: string)
  /** `req.student`. */
  datatype StudentContext = StudentContext(studentId: string, email: string, name: string, status: string)
  /** `req.user`: the row spread with a `type` tag. */
  datatype User = AdminUser(admin: AdminRow) | StudentUser(student: StudentRow)

  /** What a gate attaches to the request before calling `next`. */
  datatype Attached = Attached(admin: Option<AdminRow>, student: Option<StudentContext>, user: Option<User>)

  /** `Next` is the single call of `next()`; `Deny` is a JSON error reply. */
  datatype Verdict = Next(attached: Attached) | Deny(status: int, error: string)

  datatype Call = VerifyToken(token: string, key: string) | FindAdmin(id: Option<string>) | FindStudent(id: Option<string>)

  datatype AuthOutcome = AuthOutcome(verdict: Verdict, calls: seq<Call>)

  /** `jwt.verify(token, key)`: the decoded payload, `None` when it throws. */
  type Verifier = (string, string) -> Option<Claims>
  /** `.eq('id', id).single()` on `admins`: `None` for an error or no row. */
  type AdminLookup = Option<string> -> Option<AdminRow>
  /** `.eq('id', id).single()` on `students`: `None` for an error or no row. */
  type StudentLookup = Option<string> -> Option<StudentRow>

  /** The token a header carries: the header minus its 7-character prefix,
      when it starts with "Bearer ". */
  function BearerToken(header: Option<string>): (token: Option<string>)
    ensures token.Some? <==> header.Some? && StartsWith(header.value, BEARER_PREFIX)
    ensures token.Some? ==> header.value == BEARER_PREFIX + token.value
  {
    if header.Some? && StartsWith(header.value, BEARER_PREFIX) then
      Some(header.value[|BEARER_PREFIX|..])
    else None
  }

  /** Stripping the prefix undoes adding it. */
  lemma BearerRoundTrip(token: string)
    ensures BearerToken(Some(BEARER_PREFIX + token)) == Some(token)
  {
    assert (BEARER_PREFIX + token)[..|BEARER_PREFIX|] == BEARER_PREFIX;
    assert (BEARER_PREFIX + token)[|BEARER_PREFIX|..] == token;
  }

  /** The prefix match is case-sensitive: a lower-case scheme carries no token. */
  lemma LowerCaseSchemeRejected(token: string)
    ensures BearerToken(Some("bearer " + token)) == None
  {
    assert ("bearer " + token)[0] == 'b';
  }

  /** `process.env.JWT_SECRET || 'your-secret-key'`: the key the gates verify
      with. */
  function SigningKey(jwtSecret: Option<string>): (key: string)
    ensures Truthy(jwtSecret) ==> key == jwtSecret.value
    ensures !Truthy(jwtSecret) ==> key == DEFAULT_JWT_SECRET
  {
    OrElse(jwtSecret, DEFAULT_JWT_SECRET)
  }

  /** The payload of the header's token, if it has one that verifies. */
  function Decoded(header: Option<string>, jwtSecret: Option<string>, verify: Verifier): Option<Claims>
  {
    match BearerToken(header)
    case None => None
    case Some(token) => verify(token, SigningKey(jwtSecret))
  }

  /** `decoded.type`. */
  function TypeClaim(header: Option<string>, jwtSecret: Option<string>, verify: Verifier): Option<string>
  {
    match Decoded(header, jwtSecret, verify)
    case None => None
    case Some(claims) => Claim(claims, "type")
  }

  function ToStudentContext(s: StudentRow): StudentContext
  {
    StudentContext(s.id, s.email, s.name, s.status)
  }

  /** `authenticateAdmin`. */
  function AuthenticateAdmin(header: Option<string>, jwtSecret: Option<string>, verify: Verifier,
                             findAdmin: AdminLookup): (out: AuthOutcome)
    // No bearer header: 401 before anything else.
    ensures BearerToken(header).None? ==> out == AuthOutcome(Deny(UNAUTHORIZED, TOKEN_REQUIRED), [])
    // The token verified is the header with its first 7 characters removed.
    ensures BearerToken(header).Some? ==>
              |out.calls| >= 1 && out.calls[0] == VerifyToken(header.value[7..], SigningKey(jwtSecret))
    ensures BearerToken(header).Some? && Decoded(header, jwtSecret, verify).None? ==>
              out == AuthOutcome(Deny(UNAUTHORIZED, TOKEN_INVALID),
                                 [VerifyToken(BearerToken(header).value, SigningKey(jwtSecret))])
    // A non-admin token is refused before the database is consulted.
    ensures Decoded(header, jwtSecret, verify).Some? && TypeClaim(header, jwtSecret, verify) != Some("admin") ==>
              out.verdict == Deny(FORBIDDEN, ADMIN_REQUIRED) && |out.calls| == 1
    ensures TypeClaim(header, jwtSecret, verify) == Some("admin") ==>
              var id := Claim(Decoded(header, jwtSecret, verify).value, "adminId");
              out.calls == [VerifyToken(BearerToken(header).value, SigningKey(jwtSecret)), FindAdmin(id)]
              && (findAdmin(id).None? ==> out.verdict == Deny(UNAUTHORIZED, ADMIN_NOT_FOUND))
              && (findAdmin(id).Some? && findAdmin(id).value.status != ACTIVE ==>
                    out.verdict == Deny(FORBIDDEN, ADMIN_INACTIVE))
    // `next` is reached exactly when every check passes, with `req.admin` the row found.
    ensures out.verdict.Next? <==>
              TypeClaim(header, jwtSecret, verify) == Some("admin")
              && var row := findAdmin(Claim(Decoded(header, jwtSecret, verify).value, "adminId"));
                 row.Some? && row.value.status == ACTIVE
    ensures out.verdict.Next? ==>
              out.verdict.attached
              == Attached(findAdmin(Claim(Decoded(header, jwtSecret, verify).value, "adminId")), None, None)
    ensures out.verdict.Deny? ==> out.verdict.status in {UNAUTHORIZED, FORBIDDEN}
  {
    match BearerToken(header)
    case None => AuthOutcome(Deny(UNAUTHORIZED, TOKEN_REQUIRED), [])
    case Some(token) =>
      var verified := [VerifyToken(token, SigningKey(jwtSecret))];
      match verify(token, SigningKey(jwtSecret))
      case None => AuthOutcome(Deny(UNAUTHORIZED, TOKEN_INVALID), verified)
      case Some(claims) =>
        if Claim(claims, "type") != Some("admin") then
          AuthOutcome(Deny(FORBIDDEN, ADMIN_REQUIRED), verified)
        else
          var id := Claim(claims, "adminId");
          var calls := verified + [FindAdmin(id)];
          match findAdmin(id)
          case None => AuthOutcome(Deny(UNAUTHORIZED, ADMIN_NOT_FOUND), calls)
          case Some(admin) =>
            if admin.status != ACTIVE then AuthOutcome(Deny(FORBIDDEN, ADMIN_INACTIVE), calls)
            else AuthOutcome(Next(Attached(Some(admin), None, None)), calls)
  }

  /** `authenticateStudent`. */
  function AuthenticateStudent(header: Option<string>, jwtSecret: Option<string>, verify: Verifier,
                               findStudent: StudentLookup): (out: AuthOutcome)
    ensures BearerToken(header).None? ==> out == AuthOutcome(Deny(UNAUTHORIZED, TOKEN_REQUIRED), [])
    ensures BearerToken(header).Some? ==>
              |out.calls| >= 1 && out.calls[0] == VerifyToken(header.value[7..], SigningKey(jwtSecret))
    ensures BearerToken(header).Some? && Decoded(header, jwtSecret, verify).None? ==>
              out == AuthOutcome(Deny(UNAUTHORIZED, TOKEN_INVALID),
                                 [VerifyToken(BearerToken(header).value, SigningKey(jwtSecret))])
    ensures Decoded(header, jwtSecret, verify).Some? && TypeClaim(header, jwtSecret, verify) != Some("student") ==>
              out.verdict == Deny(FORBIDDEN, STUDENT_REQUIRED) && |out.calls| == 1
    ensures TypeClaim(header, jwtSecret, verify) == Some("student") ==>
              var id := Claim(Decoded(header, jwtSecret, verify).value, "studentId");
              out.calls == [VerifyToken(BearerToken(header).value, SigningKey(jwtSecret)), FindStudent(id)]
              && (findStudent(id).None? ==> out.verdict == Deny(UNAUTHORIZED, STUDENT_NOT_FOUND))
              && (findStudent(id).Some? && findStudent(id).value.status != ACTIVE ==>
                    out.verdict == Deny(FORBIDDEN, STUDENT_INACTIVE))
    ensures out.verdict.Next? <==>
              TypeClaim(header, jwtSecret, verify) == Some("student")
              && var row := findStudent(Claim(Decoded(header, jwtSecret, verify).value, "studentId"));
                 row.Some? && row.value.status == ACTIVE
    // `req.student` is exactly `{studentId, email, name, status}` of the row found.
    ensures out.verdict.Next? ==>
              var row := findStudent(Claim(Decoded(header, jwtSecret, verify).value, "studentId")).value;
              out.verdict.attached
              == Attached(None, Some(StudentContext(row.id, row.email, row.name, row.status)), None)
    ensures out.verdict.Deny? ==> out.verdict.status in {UNAUTHORIZED, FORBIDDEN}
  {
    match BearerToken(header)
    case None => AuthOutcome(Deny(UNAUTHORIZED, TOKEN_REQUIRED), [])
    case Some(token) =>
      var verified := [VerifyToken(token, SigningKey(jwtSecret))];
      match verify(token, SigningKey(jwtSecret))
      case None => AuthOutcome(Deny(UNAUTHORIZED, TOKEN_INVALID), verified)
      case Some(claims) =>
        if Claim(claims, "type") != Some("student") then
          AuthOutcome(Deny(FORBIDDEN, STUDENT_REQUIRED), verified)
        else
          var id := Claim(claims, "studentId");
          var calls := verified + [FindStudent(id)];
          match findStudent(id)
          case None => AuthOutcome(Deny(UNAUTHORIZED, STUDENT_NOT_FOUND), calls)
          case Some(student) =>
            if student.status != ACTIVE then AuthOutcome(Deny(FORBIDDEN, STUDENT_INACTIVE), calls)
            else AuthOutcome(Next(Attached(None, Some(ToStudentContext(student)), None)), calls)
  }

  /** `authenticate`, the gate that admits either kind of account. */
  function Authenticate(header: Option<string>, jwtSecret: Option<string>, verify: Verifier,
                        findAdmin: AdminLookup, findStudent: StudentLookup): (out: AuthOutcome)
    ensures BearerToken(header).None? ==> out == AuthOutcome(Deny(UNAUTHORIZED, TOKEN_REQUIRED), [])
    ensures BearerToken(header).Some? ==>
              |out.calls| >= 1 && out.calls[0] == VerifyToken(header.value[7..], SigningKey(jwtSecret))
    ensures BearerToken(header).Some? && Decoded(header, jwtSecret, verify).None? ==>
              out == AuthOutcome(Deny(UNAUTHORIZED, TOKEN_INVALID),
                                 [VerifyToken(BearerToken(header).value, SigningKey(jwtSecret))])
    // Any `type` other than the two known ones is refused with 403, with no lookup.
    ensures Decoded(header, jwtSecret, verify).Some?
            && TypeClaim(header, jwtSecret, verify) != Some("admin") && TypeClaim(header, jwtSecret, verify) != Some("student") ==>
              out.verdict == Deny(FORBIDDEN, UNKNOWN_TYPE) && |out.calls| == 1
    // A missing or inactive account is refused with 401 here, never 403.
    ensures TypeClaim(header, jwtSecret, verify) == Some("admin") ==>
              var id := Claim(Decoded(header, jwtSecret, verify).value, "adminId");
              var row := findAdmin(id);
              out.calls == [VerifyToken(BearerToken(header).value, SigningKey(jwtSecret)), FindAdmin(id)]
              && (row.None? || row.value.status != ACTIVE ==> out.verdict == Deny(UNAUTHORIZED, ADMIN_NOT_FOUND))
              && (row.Some? && row.value.status == ACTIVE ==>
                    out.verdict == Next(Attached(row, None, Some(AdminUser(row.value)))))
    ensures TypeClaim(header, jwtSecret, verify) == Some("student") ==>
              var id := Claim(Decoded(header, jwtSecret, verify).value, "studentId");
              var row := findStudent(id);
              out.calls == [VerifyToken(BearerToken(header).value, SigningKey(jwtSecret)), FindStudent(id)]
              && (row.None? || row.value.status != ACTIVE ==> out.verdict == Deny(UNAUTHORIZED, STUDENT_NOT_FOUND))
              && (row.Some? && row.value.status == ACTIVE ==>
                    out.verdict == Next(Attached(None, Some(ToStudentContext(row.value)), Some(StudentUser(row.value)))))
    ensures out.verdict.Deny? && out.verdict.status == FORBIDDEN <==>
              Decoded(header, jwtSecret, verify).Some?
              && TypeClaim(header, jwtSecret, verify) != Some("admin") && TypeClaim(header, jwtSecret, verify) != Some("student")
    ensures out.verdict.Deny? ==> out.verdict.status in {UNAUTHORIZED, FORBIDDEN}
  {
    match BearerToken(header)
    case None => AuthOutcome(Deny(UNAUTHORIZED, TOKEN_REQUIRED), [])
    case Some(token) =>
      var verified := [VerifyToken(token, SigningKey(jwtSecret))];
      match verify(token, SigningKey(jwtSecret))
      case None => AuthOutcome(Deny(UNAUTHORIZED, TOKEN_INVALID), verified)
      case Some(claims) =>
        if Claim(claims, "type") == Some("admin") then
          var id := Claim(claims, "adminId");
          var calls := verified + [FindAdmin(id)];
          match findAdmin(id)
          case Some(admin) =>
            if admin.status != ACTIVE then AuthOutcome(Deny(UNAUTHORIZED, ADMIN_NOT_FOUND), calls)
            else AuthOutcome(Next(Attached(Some(admin), None, Some(AdminUser(admin)))), calls)
          case None => AuthOutcome(Deny(UNAUTHORIZED, ADMIN_NOT_FOUND), calls)
        else if Claim(claims, "type") == Some("student") then
          var id := Claim(claims, "studentId");
          var calls := verified + [FindStudent(id)];
          match findStudent(id)
          case Some(student) =>
            if student.status != ACTIVE then AuthOutcome(Deny(UNAUTHORIZED, STUDENT_NOT_FOUND), calls)
            else AuthOutcome(Next(Attached(None, Some(ToStudentContext(student)), Some(StudentUser(student)))), calls)
          case None => AuthOutcome(Deny(UNAUTHORIZED, STUDENT_NOT_FOUND), calls)
        else
          AuthOutcome(Deny(FORBIDDEN, UNKNOWN_TYPE), verified)
  }

  /** The general gate admits an admin token exactly when the admin gate
      does, and attaches the same `req.admin`. */
  lemma GeneralAgreesWithAdminGate(header: Option<string>, jwtSecret: Option<string>, verify: Verifier,
                                   findAdmin: AdminLookup, findStudent: StudentLookup)
    requires TypeClaim(header, jwtSecret, verify) == Some("admin")
    ensures Authenticate(header, jwtSecret, verify, findAdmin, findStudent).verdict.Next?
            <==> AuthenticateAdmin(header, jwtSecret, verify, findAdmin).verdict.Next?
    ensures AuthenticateAdmin(header, jwtSecret, verify, findAdmin).verdict.Next? ==>
              Authenticate(header, jwtSecret, verify, findAdmin, findStudent).verdict.attached.admin
              == AuthenticateAdmin(header, jwtSecret, verify, findAdmin).verdict.attached.admin
  {
  }

  /** The general gate admits a student token exactly when the student gate
      does, and attaches the same `req.student`. */
  lemma GeneralAgreesWithStudentGate(header: Option<string>, jwtSecret: Option<string>, verify: Verifier,
                                     findAdmin: AdminLookup, findStudent: StudentLookup)
    requires TypeClaim(header, jwtSecret, verify) == Some("student")
    ensures Authenticate(header, jwtSecret, verify, findAdmin, findStudent).verdict.Next?
            <==> AuthenticateStudent(header, jwtSecret, verify, findStudent).verdict.Next?
    ensures AuthenticateStudent(header, jwtSecret, verify, findStudent).verdict.Next? ==>
              Authenticate(header, jwtSecret, verify, findAdmin, findStudent).verdict.attached.student
              == AuthenticateStudent(header, jwtSecret, verify, findStudent).verdict.attached.student
  {
  }

  /** The gates disagree on the status for an account that exists but is not
      active: the specific gates answer 403, the general gate 401. */
  lemma InactiveAccountStatusDiffers(header: Option<string>, jwtSecret: Option<string>, verify: Verifier,
                                     findAdmin: AdminLookup, findStudent: StudentLookup)
    requires TypeClaim(header, jwtSecret, verify) == Some("student")
    requires var row := findStudent(Claim(Decoded(header, jwtSecret, verify).value, "studentId"));
             row.Some? && row.value.status != ACTIVE
    ensures AuthenticateStudent(header, jwtSecret, verify, findStudent).verdict == Deny(FORBIDDEN, STUDENT_INACTIVE)
    ensures Authenticate(header, jwtSecret, verify, findAdmin, findStudent).verdict == Deny(UNAUTHORIZED, STUDENT_NOT_FOUND)
  {
  }

  /** Without `JWT_SECRET` the gates fall back to a key written in the
      source: anyone can sign `{type: "admin", adminId}` with it and pass the
      admin gate as that (active) admin. `sign` stands for `jwt.sign`, and
      `verify` decodes what `sign` produced with the same key. */
  lemma DefaultKeyTokenAdmitted(jwtSecret: Option<string>, sign: (Claims, string) -> string, verify: Verifier,
                                findAdmin: AdminLookup, adminId: string, row: AdminRow)
    requires !Truthy(jwtSecret)
    requires forall c, k :: verify(sign(c, k), k) == Some(c)
    requires findAdmin(Some(adminId)) == Some(row) && row.status == ACTIVE
    ensures var token := sign(map["type" := "admin", "adminId" := adminId], DEFAULT_JWT_SECRET);
            AuthenticateAdmin(Some(BEARER_PREFIX + token), jwtSecret, verify, findAdmin).verdict
            == Next(Attached(Some(row), None, None))
  {
    var claims: Claims := map["type" := "admin", "adminId" := adminId];
    var token := sign(claims, DEFAULT_JWT_SECRET);
    BearerRoundTrip(token);
    assert Claim(claims, "type") == Some("admin");
    assert Claim(claims, "adminId") == Some(adminId);
  }
}

=== FILE: contact.dfy ===
/** The two contact-form handlers: `handleContactForm`
    (controllers/contactController.js), which validates strictly, stores into
    `contact_messages` and mails the academy, and the `/submit` route
    (routes/contactRoutes.js), which validates loosely and stores into
    `contacts`. Only the route is mounted, at `/api/contact`. */
module Contact {
  import opened Js

  /** The accepted values of `preferred_contact` in the controller. */
  const PREFERRED_CONTACTS: seq<string> := ["email", "phone", "whatsapp"]

  /** The request body; every field may be absent. */
  datatype Form = Form(name: Option<string>, email: Option<string>, phone: Option<string>,
                       subject: Option<string>, message: Option<string>,
                       preferredContact: Option<string>)

  /** A stored submission; `None` is a null (or unset) column. */
  datatype ContactRow = ContactRow(name: string, email: string, phone: Option<string>,
                                   subject: Option<string>, message: string,
                                   preferredContact: Option<string>)

  datatype Call = InsertMessage(row: ContactRow) | MailAcademy(row: ContactRow) | InsertContact(row: ContactRow)

  /** The controller's required fields: name, email, subject and message. */
  predicate ControllerFieldsPresent(f: Form)
  {
    Truthy(f.name) && Truthy(f.email) && Truthy(f.subject) && Truthy(f.message)
  }

  /** The controller's `preferred_contact` check: absent, empty or one of the three. */
  predicate PreferredContactValid(f: Form)
  {
    !Truthy(f.preferredContact) || f.preferredContact.value in PREFERRED_CONTACTS
  }

  /** The route's required fields: name, email and message only. */
  predicate RouteFieldsPresent(f: Form)
  {
    Truthy(f.name) && Truthy(f.email) && Truthy(f.message)
  }

  datatype ControllerReply =
    | Submitted(data: ContactRow)     // 201, the inserted row
    | FieldsMissing                   // 400 "Missing required fields: ..."
    | BadPreferredContact             // 400 "Invalid preferred_contact ..."
    | SaveFailed(details: string)     // 500 "Failed to save contact message"
    | EmailFailed(details: string)    // 500 "Email sending failed"
  {
    function Status(): int
    {
      match this
      case Submitted(_) => 201
      case FieldsMissing => 400
      case BadPreferredContact => 400
      case SaveFailed(_) => 500
      case EmailFailed(_) => 500
    }
  }

  datatype ControllerOutcome = ControllerOutcome(reply: ControllerReply, table: seq<ContactRow>, calls: seq<Call>)

  /** The row the controller inserts: `preferred_contact || null`, phone as given. */
  function MessageRow(f: Form): (row: ContactRow)
    requires ControllerFieldsPresent(f)
    ensures row.preferredContact.None? <==> !Truthy(f.preferredContact)
    ensures row.preferredContact.Some? ==> row.preferredContact == f.preferredContact
    ensures row.phone == f.phone && row.subject == f.subject
    ensures row.name == f.name.value && row.email == f.email.value && row.message == f.message.value
  {
    ContactRow(f.name.value, f.email.value, f.phone, f.subject, f.message.value,
               if Truthy(f.preferredContact) then f.preferredContact else None)
  }

  /** `handleContactForm`. `insertError` and `mailError` are the failures,
      if any, of the insert and of the mail to the academy. */
  function HandleContactForm(f: Form, table: seq<ContactRow>, insertError: Option<string>,
                             mailError: Option<string>): (out: ControllerOutcome)
    // Validation failures touch neither the store nor the mailer.
    ensures !ControllerFieldsPresent(f) ==> out == ControllerOutcome(FieldsMissing, table, [])
    ensures ControllerFieldsPresent(f) && !PreferredContactValid(f) ==>
              out == ControllerOutcome(BadPreferredContact, table, [])
    ensures out.reply.Status() == 400 <==> !ControllerFieldsPresent(f) || !PreferredContactValid(f)
    // A failed insert stores nothing and sends no mail.
    ensures ControllerFieldsPresent(f) && PreferredContactValid(f) && insertError.Some? ==>
              out == ControllerOutcome(SaveFailed(insertError.value), table, [InsertMessage(MessageRow(f))])
    // Once inserted, the row stays even if the mail then fails.
    ensures ControllerFieldsPresent(f) && PreferredContactValid(f) && insertError.None? ==>
              out.table == table + [MessageRow(f)]
              && out.calls == [InsertMessage(MessageRow(f)), MailAcademy(MessageRow(f))]
              && (mailError.Some? ==> out.reply == EmailFailed(mailError.value))
    ensures out.reply.Submitted? <==>
              ControllerFieldsPresent(f) && PreferredContactValid(f) && insertError.None? && mailError.None?
    ensures out.reply.Submitted? ==> out.reply.data == out.table[|out.table| - 1]
  {
    if !ControllerFieldsPresent(f) then ControllerOutcome(FieldsMissing, table, [])
    else if !PreferredContactValid(f) then ControllerOutcome(BadPreferredContact, table, [])
    else
      var row := MessageRow(f);
      if insertError.Some? then ControllerOutcome(SaveFailed(insertError.value), table, [InsertMessage(row)])
      else
        var calls := [InsertMessage(row), MailAcademy(row)];
        if mailError.Some? then ControllerOutcome(EmailFailed(mailError.value), table + [row], calls)
        else ControllerOutcome(Submitted(row), table + [row], calls)
  }

  datatype RouteReply =
    | Saved                       // 200 "Contact submission saved successfully!"
    | RequiredMissing             // 400 "Name, email, and message are required."
    | InsertFailed(message: string)  // 500, the database's message
  {
    function Status(): int
    {
      match this
      case Saved => 200
      case RequiredMissing => 400
      case InsertFailed(_) => 500
    }
  }

  datatype RouteOutcome = RouteOutcome(reply: RouteReply, table: seq<ContactRow>, calls: seq<Call>)

  /** The row the route inserts: every optional field exactly as given. */
  function ContactRowOf(f: Form): (row: ContactRow)
    requires RouteFieldsPresent(f)
    ensures row.subject == f.subject && row.preferredContact == f.preferredContact && row.phone == f.phone
    ensures row.name == f.name.value && row.email == f.email.value && row.message == f.message.value
  {
    ContactRow(f.name.value, f.email.value, f.phone, f.subject, f.message.value, f.preferredContact)
  }

  /** `POST /submit` of routes/contactRoutes.js. */
  function SubmitContact(f: Form, table: seq<ContactRow>, insertError: Option<string>): (out: RouteOutcome)
    ensures !RouteFieldsPresent(f) ==> out == RouteOutcome(RequiredMissing, table, [])
    ensures RouteFieldsPresent(f) ==> out.calls == [InsertContact(ContactRowOf(f))]
    ensures RouteFieldsPresent(f) && insertError.Some? ==>
              out.reply == InsertFailed(insertError.value) && out.table == table
    ensures out.reply == Saved <==> RouteFieldsPresent(f) && insertError.None?
    ensures out.reply == Saved ==> out.table == table + [ContactRowOf(f)]
  {
    if !RouteFieldsPresent(f) then RouteOutcome(RequiredMissing, table, [])
    else
      var row := ContactRowOf(f);
      if insertError.Some? then RouteOutcome(InsertFailed(insertError.value), table, [InsertContact(row)])
      else RouteOutcome(Saved, table + [row], [InsertContact(row)])
  }

  /** The mounted route is the weaker validator: every form the controller
      accepts, the route accepts too. */
  lemma RouteAcceptsWhatControllerAccepts(f: Form, table: seq<ContactRow>, e1: Option<string>,
                                          e2: Option<string>, e3: Option<string>)
    requires HandleContactForm(f, table, e1, e2).reply.Status() != 400
    ensures SubmitContact(f, table, e3).reply != RequiredMissing
  {
  }

  /** ... and strictly weaker: a form without a subject, or with an unknown
      preferred contact, is stored by the route and refused by the controller. */
  lemma RouteIsStrictlyWeaker(table: seq<ContactRow>)
    ensures var noSubject := Form(Some("Ann"), Some("a@x"), None, None, Some("hi"), None);
            SubmitContact(noSubject, table, None).reply == Saved
            && HandleContactForm(noSubject, table, None, None).reply == FieldsMissing
    ensures var fax := Form(Some("Ann"), Some("a@x"), None, Some("s"), Some("hi"), Some("fax"));
            SubmitContact(fax, table, None).table == table + [ContactRowOf(fax)]
            && ContactRowOf(fax).preferredContact == Some("fax")
            && HandleContactForm(fax, table, None, None).reply == BadPreferredContact
  {
    var fax := Form(Some("Ann"), Some("a@x"), None, Some("s"), Some("hi"), Some("fax"));
    assert "fax" !in PREFERRED_CONTACTS;
  }

  /** Both variants refuse a form lacking name, email or message, and then
      neither stores nor mails anything. */
  lemma BothRefuseMissingCoreFields(f: Form, table: seq<ContactRow>, e1: Option<string>,
                                    e2: Option<string>, e3: Option<string>)
    requires !RouteFieldsPresent(f)
    ensures HandleContactForm(f, table, e1, e2) == ControllerOutcome(FieldsMissing, table, [])
    ensures SubmitContact(f, table, e3) == RouteOutcome(RequiredMissing, table, [])
  {
  }
}

=== FILE: decimal.dfy ===
/** Decimal rendering of non-negative integers: `Number.prototype.toString()`
    for integers, `String.prototype.padStart`, and the numeric value a digit
    string denotes. */
module Decimal {

  function Pow10(k: nat): nat
  {
    if k == 0 then 1 else 10 * Pow10(k - 1)
  }

  predicate IsDigit(c: char)
  {
    '0' <= c <= '9'
  }

  predicate AllDigits(s: string)
  {
    forall i :: 0 <= i < |s| ==> IsDigit(s[i])
  }

  function DigitChar(d: nat): char
    requires d < 10
  {
    "0123456789"[d]
  }

  function DigitValue(c: char): nat
    requires IsDigit(c)
  {
    c as int - '0' as int
  }

  /** The number a digit string denotes, most significant digit first;
      the partner of `ToDecimal` and `PadStart`. */
  function ValueOf(s: string): nat
    requires AllDigits(s)
  {
    if s == [] then 0 else 10 * ValueOf(s[..|s| - 1]) + DigitValue(s[|s| - 1])
  }

  /** `Number.MAX_SAFE_INTEGER`, 2^53 - 1: every integer up to it is an exact
      double, and `toString()` prints its exact digits. Beyond it doubles skip
      integers and `toString()` prints the shortest round-trip digits. */
  const MAX_SAFE_INTEGER: nat := 9007199254740991

  /** `n.toString()` for a safe integer: the shortest decimal numeral of `n`
      ("0" for zero). */
  function ToDecimal(n: nat): (s: string)
    requires n <= MAX_SAFE_INTEGER
    ensures 1 <= |s|
    ensures AllDigits(s)
    ensures ValueOf(s) == n
    ensures |s| > 1 ==> s[0] != '0'
  {
    if n < 10 then [DigitChar(n)]
    else
      var hi := ToDecimal(n / 10);
      var s := hi + [DigitChar(n % 10)];
      assert s[..|s| - 1] == hi;
      s
  }

  /** A numeral of `n` has at most `k` digits when `n < 10^k` (and `k >= 1`). */
  lemma {:induction false} ToDecimalLength(n: nat, k: nat)
    requires 1 <= k
    requires n < Pow10(k) && n <= MAX_SAFE_INTEGER
    ensures |ToDecimal(n)| <= k
  {
    if n >= 10 {
      assert k >= 2;
      assert n / 10 < Pow10(k - 1);
      ToDecimalLength(n / 10, k - 1);
    }
  }

  /** Larger exponents give larger powers. */
  lemma {:induction false} Pow10Monotone(a: nat, b: nat)
    requires a <= b
    ensures Pow10(a) <= Pow10(b)
    decreases b
  {
    if a < b {
      Pow10Monotone(a, b - 1);
    }
  }

  function Repeat(c: char, n: nat): (r: string)
    ensures |r| == n
    ensures forall i :: 0 <= i < n ==> r[i] == c
  {
    if n == 0 then [] else [c] + Repeat(c, n - 1)
  }

  /** `s.padStart(len, fill)`: left-fill with `fill` up to length `len`;
      a string already that long is returned unchanged. */
  function PadStart(s: string, len: nat, fill: char): string
  {
    if |s| >= len then s else Repeat(fill, len - |s|) + s
  }

  /** Leading zeros do not change the value of a numeral. */
  lemma {:induction false} LeadingZeros(z: nat, s: string)
    requires AllDigits(s)
    ensures AllDigits(Repeat('0', z) + s)
    ensures ValueOf(Repeat('0', z) + s) == ValueOf(s)
  {
    var t := Repeat('0', z) + s;
    assert AllDigits(t) by {
      forall i | 0 <= i < |t| ensures IsDigit(t[i]) {
        if i < z { assert t[i] == '0'; } else { assert t[i] == s[i - z]; }
      }
    }
    if s == [] {
      assert t == Repeat('0', z);
      AllZeros(z);
    } else {
      var init := s[..|s| - 1];
      assert AllDigits(init) by {
        forall i | 0 <= i < |init| ensures IsDigit(init[i]) { assert init[i] == s[i]; }
      }
      LeadingZeros(z, init);
      assert t[..|t| - 1] == Repeat('0', z) + init;
      assert t[|t| - 1] == s[|s| - 1];
    }
  }

  lemma {:induction false} AllZeros(z: nat)
    ensures AllDigits(Repeat('0', z))
    ensures ValueOf(Repeat('0', z)) == 0
  {
    if z > 0 {
      var r := Repeat('0', z);
      AllZeros(z - 1);
      assert r[..|r| - 1] == Repeat('0', z - 1) by {
        RepeatSnoc(z - 1);
      }
    }
  }

  lemma {:induction false} RepeatSnoc(n: nat)
    ensures Repeat('0', n + 1) == Repeat('0', n) + ['0']
  {
    if n > 0 {
      RepeatSnoc(n - 1);
    }
  }
}

=== FILE: js.dfy ===
/** JavaScript value semantics the handlers rely on: `undefined`, truthiness,
    string concatenation of possibly-undefined values, and the string
    predicates `startsWith` and `includes`. */
module Js {

  /** A request field that is either `undefined` or a value. */
  datatype Option<+T> = None | Some(value: T)

  /** The outcome of a call into the hosted database or another external
      service: a value, or an error carrying its `message`. */
  datatype Result<+T> = Ok(value: T) | Err(message: string)

  /** `!!v` for a string field: `undefined` and the empty string are falsy. */
  predicate Truthy(v: Option<string>)
  {
    v.Some? && v.value != ""
  }

  /** `!!v` for a numeric field: `undefined` and `0` are falsy. */
  predicate TruthyInt(v: Option<int>)
  {
    v.Some? && v.value != 0
  }

  /** `v || fallback` for a string field. */
  function OrElse(v: Option<string>, fallback: string): string
  {
    if Truthy(v) then v.value else fallback
  }

  /** The string a value contributes to `+` concatenation: `undefined`
      becomes the text "undefined". */
  function Str(v: Option<string>): string
  {
    match v
    case Some(s) => s
    case None => "undefined"
  }

  /** `s.startsWith(prefix)`. */
  predicate StartsWith(s: string, prefix: string)
  {
    |prefix| <= |s| && s[..|prefix|] == prefix
  }

  /** `sub` occurs in `s` beginning at index `i`. */
  predicate OccursAt(s: string, sub: string, i: nat)
  {
    i + |sub| <= |s| && s[i..i + |sub|] == sub
  }

  /** `s.includes(sub)`. */
  predicate Includes(s: string, sub: string)
  {
    exists i: nat | i <= |s| :: OccursAt(s, sub, i)
  }

  lemma PrefixIncluded(s: string, sub: string)
    requires StartsWith(s, sub)
    ensures Includes(s, sub)
  {
    assert OccursAt(s, sub, 0);
  }
}

/** A decoded JSON Web Token payload, reduced to its string-valued claims. */
module Jwt {
  import opened Js

  type Claims = map<string, string>

  /** `decoded[key]`, `undefined` when the claim is absent. */
  function Claim(c: Claims, key: string): Option<string>
  {
    if key in c then Some(c[key]) else None
  }
}

=== FILE: otp.dfy ===
/** Student login by one-time passcode (controllers/studentController.js):
    code generation, the append-only `student_otps` store, the request and
    verify handlers, and the claim set the verify handler signs. */
module Otp {
  import opened Js
  import opened Jwt
  import opened Decimal

  /** Digits in a code; `generateOtp` is only ever called with its default. */
  const OTP_LENGTH: nat := 6
  const MS_PER_MINUTE: int := 60000
  /** The `expiresIn` option of the issued session token. */
  const TOKEN_LIFETIME: string := "1h"

  /** The longest code whose draws are all safe integers (10^15 < 2^53). */
  const MAX_EXACT_LENGTH: nat := 15

  /** `generateOtp(length)`, where `draw` is `Math.floor(Math.random() * 10^length)`.
      The code is the numeral of `draw` left-padded with zeros. For length 0
      the only draw is 0 and the code is "0": `padStart` never shortens. */
  function GenerateOtp(length: nat, draw: nat): (code: string)
    requires length <= MAX_EXACT_LENGTH
    requires draw < Pow10(length)
    ensures |code| == if length == 0 then 1 else length
    ensures AllDigits(code)
    ensures ValueOf(code) == draw
  {
    Pow10Monotone(length, MAX_EXACT_LENGTH);
    assert Pow10(MAX_EXACT_LENGTH) == 1_000_000_000_000_000;
    var numeral := ToDecimal(draw);
    ToDecimalLength(draw, if length == 0 then 1 else length);
    if |numeral| >= length then numeral
    else
      LeadingZeros(length - |numeral|, numeral);
      PadStart(numeral, length, '0')
  }

  /** Two draws give the same code only if they are the same draw. */
  lemma GenerateOtpInjective(length: nat, a: nat, b: nat)
    requires length <= MAX_EXACT_LENGTH
    requires a < Pow10(length) && b < Pow10(length)
    requires GenerateOtp(length, a) == GenerateOtp(length, b)
    ensures a == b
  {
  }

  /** One row of `student_otps`. `otpExpires` is the expiry instant in
      milliseconds; the ISO string the source stores round-trips exactly. */
  datatype OtpRecord = OtpRecord(email: string, otp: string, otpExpires: int)

  /** The `student_otps` table in creation order: the last row is the newest. */
  type OtpStore = seq<OtpRecord>

  /** The `students` columns the handlers read. */
  datatype Student = Student(id: string, name: string, email: string, course: string)

  /** External calls the handlers make, in the order they make them. */
  datatype Call =
    | FindStudentByEmail(email: string)
    | InsertOtp(record: OtpRecord)
    | SendOtpMail(to: string, otp: string)
    | FetchLatestOtp(email: string)
    | FetchProfile(email: string)

  datatype RequestReply =
    | OtpSent            // "OTP sent successfully"
    | EmailRequired      // "Email is required"
    | StudentNotFound    // "Student not found"
    | SaveFailed         // "Failed to save OTP"
    | RequestCrashed     // "Server error": a throw reached the handler's catch
  {
    function Status(): int
    {
      match this
      case OtpSent => 200
      case EmailRequired => 400
      case StudentNotFound => 404
      case SaveFailed => 500
      case RequestCrashed => 500
    }
  }

  datatype RequestOutcome = RequestOutcome(reply: RequestReply, store: OtpStore, calls: seq<Call>)

  /** The record a request appends: the code for `draw`, expiring `ttlMinutes`
      after `now`. */
  function NewRecord(email: string, draw: nat, now: int, ttlMinutes: int): OtpRecord
    requires draw < Pow10(OTP_LENGTH)
  {
    OtpRecord(email, GenerateOtp(OTP_LENGTH, draw), now + ttlMinutes * MS_PER_MINUTE)
  }

  /** `requestOtp`. `student` is what the `students` lookup by email returns
      (`None` for an error or no row), `draw` the random draw, `now` the
      clock, `ttlMinutes` the numeric value of `OTP_EXPIRY_MINUTES` (`None`
      when it is missing or not a number, which makes `toISOString` throw),
      `insertOk` and `mailOk` whether the insert and the mail succeed. */
  function RequestOtp(email: Option<string>, student: Option<Student>, draw: nat, now: int,
                      ttlMinutes: Option<int>, insertOk: bool, mailOk: bool,
                      store: OtpStore): (out: RequestOutcome)
    requires draw < Pow10(OTP_LENGTH)
    // A missing email is rejected before anything is looked up or stored.
    ensures !Truthy(email) ==> out.reply == EmailRequired && out.calls == [] && out.store == store
    // An unknown student is rejected after the lookup alone.
    ensures Truthy(email) && student.None? ==>
              out.reply == StudentNotFound && out.store == store
              && out.calls == [FindStudentByEmail(email.value)]
    // The store is append-only: unchanged, or exactly one new record after the old ones.
    ensures out.store == store
            || (email.Some? && ttlMinutes.Some?
                && out.store == store + [NewRecord(email.value, draw, now, ttlMinutes.value)])
    ensures |out.store| == |store| + 1 <==>
              Truthy(email) && student.Some? && ttlMinutes.Some? && insertOk
    // The mail goes out only after the record is stored, and carries its code.
    ensures (exists i :: 0 <= i < |out.calls| && out.calls[i].SendOtpMail?) ==>
              |out.store| == |store| + 1
              && out.calls[|out.calls| - 1] == SendOtpMail(email.value, out.store[|store|].otp)
    // A missing or non-numeric expiry setting throws before the insert.
    ensures Truthy(email) && student.Some? && ttlMinutes.None? ==>
              out == RequestOutcome(RequestCrashed, store, [FindStudentByEmail(email.value)])
    // A failed insert stores nothing and sends no mail.
    ensures Truthy(email) && student.Some? && ttlMinutes.Some? && !insertOk ==>
              out == RequestOutcome(SaveFailed, store,
                                    [FindStudentByEmail(email.value),
                                     InsertOtp(NewRecord(email.value, draw, now, ttlMinutes.value))])
    ensures out.reply == SaveFailed <==> Truthy(email) && student.Some? && ttlMinutes.Some? && !insertOk
    // Once stored, the record's code is mailed to the requester.
    ensures Truthy(email) && student.Some? && ttlMinutes.Some? && insertOk ==>
              var record := NewRecord(email.value, draw, now, ttlMinutes.value);
              out.calls == [FindStudentByEmail(email.value), InsertOtp(record), SendOtpMail(email.value, record.otp)]
    // A mail failure leaves the stored record behind.
    ensures Truthy(email) && student.Some? && ttlMinutes.Some? && insertOk && !mailOk ==>
              out.reply == RequestCrashed && |out.store| == |store| + 1
    ensures out.reply == RequestCrashed <==>
              Truthy(email) && student.Some? && (ttlMinutes.None? || (insertOk && !mailOk))
    ensures out.reply == OtpSent <==>
              Truthy(email) && student.Some? && ttlMinutes.Some? && insertOk && mailOk
  {
    if !Truthy(email) then RequestOutcome(EmailRequired, store, [])
    else
      var lookup := [FindStudentByEmail(email.value)];
      if student.None? then RequestOutcome(StudentNotFound, store, lookup)
      else if ttlMinutes.None? then RequestOutcome(RequestCrashed, store, lookup)
      else
        var record := NewRecord(email.value, draw, now, ttlMinutes.value);
        var saved := lookup + [InsertOtp(record)];
        if !insertOk then RequestOutcome(SaveFailed, store, saved)
        else
          var mailed := saved + [SendOtpMail(email.value, record.otp)];
          RequestOutcome(if mailOk then OtpSent else RequestCrashed, store + [record], mailed)
  }

  /** The newest record for `email`: `order("created_at", desc).limit(1)`. */
  function LatestFor(store: OtpStore, email: string): (r: Option<OtpRecord>)
    ensures r.None? <==> forall i :: 0 <= i < |store| ==> store[i].email != email
    ensures r.Some? ==>
              exists i :: 0 <= i < |store| && store[i] == r.value && r.value.email == email
                          && forall j :: i < j < |store| ==> store[j].email != email
  {
    if store == [] then None
    else if store[|store| - 1].email == email then Some(store[|store| - 1])
    else LatestFor(store[..|store| - 1], email)
  }

  /** The expiry test: strictly after `otpExpires`, so the instant itself is
      still valid. */
  predicate Expired(record: OtpRecord, now: int)
  {
    now > record.otpExpires
  }

  /** The payload `verifyOtp` signs: `{id, email, name}`, with no `type`
      and no `studentId` claim. */
  function SessionClaims(s: Student): (c: Claims)
    ensures c.Keys == {"id", "email", "name"}
    ensures c["id"] == s.id && c["email"] == s.email && c["name"] == s.name
  {
    map["id" := s.id, "email" := s.email, "name" := s.name]
  }

  datatype VerifyReply =
    | LoginOk(claims: Claims, expiresIn: string, student: Student)
    | CredentialsRequired  // "Email and OTP are required"
    | OtpNotFound          // "OTP not found"
    | OtpExpired           // "OTP expired"
    | InvalidOtp           // "Invalid OTP"
    | VerifyCrashed        // "Server error": reading `id` of a missing profile, or signing without a secret, throws
  {
    function Status(): int
    {
      match this
      case LoginOk(_, _, _) => 200
      case VerifyCrashed => 500
      case _ => 400
    }
  }

  datatype VerifyOutcome = VerifyOutcome(reply: VerifyReply, calls: seq<Call>)

  /** `verifyOtp`. `fetchOk` is false when the latest-record query reports an
      error; `profile` is what the `students` lookup by email returns after a
      matching code; `jwtSecret` is `JWT_SECRET`, without which (or when
      empty) `jwt.sign` throws. The handler only reads the store. */
  function VerifyOtp(email: Option<string>, otp: Option<string>, store: OtpStore, now: int,
                     fetchOk: bool, profile: Option<Student>, jwtSecret: Option<string>): (out: VerifyOutcome)
    ensures !Truthy(email) || !Truthy(otp) ==> out.reply == CredentialsRequired && out.calls == []
    // A failing query reads like a missing record.
    ensures out.reply == OtpNotFound <==>
              Truthy(email) && Truthy(otp) && (!fetchOk || LatestFor(store, email.value).None?)
    // Expiry is checked first: an expired record fails even when the code matches.
    ensures out.reply == OtpExpired <==>
              Truthy(email) && Truthy(otp) && fetchOk && LatestFor(store, email.value).Some?
              && Expired(LatestFor(store, email.value).value, now)
    ensures out.reply == InvalidOtp <==>
              Truthy(email) && Truthy(otp) && fetchOk && LatestFor(store, email.value).Some?
              && !Expired(LatestFor(store, email.value).value, now)
              && LatestFor(store, email.value).value.otp != otp.value
    ensures out.reply == VerifyCrashed <==>
              Truthy(email) && Truthy(otp) && fetchOk && LatestFor(store, email.value).Some?
              && !Expired(LatestFor(store, email.value).value, now)
              && LatestFor(store, email.value).value.otp == otp.value
              && (profile.None? || !Truthy(jwtSecret))
    ensures out.reply.LoginOk? <==>
              Truthy(email) && Truthy(otp) && fetchOk && LatestFor(store, email.value).Some?
              && !Expired(LatestFor(store, email.value).value, now)
              && LatestFor(store, email.value).value.otp == otp.value
              && profile.Some? && Truthy(jwtSecret)
    // Only the newest record is consulted, and the profile only after a match.
    ensures Truthy(email) && Truthy(otp) ==> |out.calls| >= 1 && out.calls[0] == FetchLatestOtp(email.value)
    ensures (exists i :: 0 <= i < |out.calls| && out.calls[i].FetchProfile?) <==>
              out.reply.LoginOk? || out.reply == VerifyCrashed
    // A rejected code costs exactly the one query: no insert, no mail.
    ensures out.reply == OtpNotFound || out.reply == OtpExpired || out.reply == InvalidOtp ==>
              out.calls == [FetchLatestOtp(email.value)]
    // A matching code adds exactly the profile lookup by the same email.
    ensures out.reply.LoginOk? || out.reply == VerifyCrashed ==>
              out.calls == [FetchLatestOtp(email.value), FetchProfile(email.value)]
    // The token carries exactly the profile's id, email and name, for one hour.
    ensures out.reply.LoginOk? ==>
              out.reply.student == profile.value
              && out.reply.claims == SessionClaims(profile.value)
              && out.reply.expiresIn == TOKEN_LIFETIME
  {
    if !Truthy(email) || !Truthy(otp) then VerifyOutcome(CredentialsRequired, [])
    else
      var fetch := [FetchLatestOtp(email.value)];
      var latest := LatestFor(store, email.value);
      if !fetchOk || latest.None? then VerifyOutcome(OtpNotFound, fetch)
      else if Expired(latest.value, now) then VerifyOutcome(OtpExpired, fetch)
      else if latest.value.otp != otp.value then VerifyOutcome(InvalidOtp, fetch)
      else
        var calls := fetch + [FetchProfile(email.value)];
        assert calls[1].FetchProfile?;
        match profile
        case None => VerifyOutcome(VerifyCrashed, calls)
        case Some(s) =>
          if !Truthy(jwtSecret) then VerifyOutcome(VerifyCrashed, calls)
          else VerifyOutcome(LoginOk(SessionClaims(s), TOKEN_LIFETIME, s), calls)
  }

  /** A call to one of the two endpoints, as the store sees it. */
  datatype Event =
    | Request(email: Option<string>, student: Option<Student>, draw: nat,
              ttlMinutes: Option<int>, insertOk: bool, mailOk: bool)
    | Verify(email: Option<string>, otp: Option<string>, fetchOk: bool, profile: Option<Student>,
             jwtSecret: Option<string>)

  datatype Timed = Timed(at: int, event: Event)

  /** The random draw is below 10^6, as `Math.random() < 1` guarantees. */
  predicate ValidDraws(events: seq<Timed>)
  {
    forall i :: 0 <= i < |events| ==>
      (events[i].event.Request? ==> events[i].event.draw < Pow10(OTP_LENGTH))
  }

  function Step(store: OtpStore, t: Timed): OtpStore
    requires t.event.Request? ==> t.event.draw < Pow10(OTP_LENGTH)
  {
    match t.event
    case Request(email, student, draw, ttl, insertOk, mailOk) =>
      RequestOtp(email, student, draw, t.at, ttl, insertOk, mailOk, store).store
    case Verify(_, _, _, _, _) => store
  }

  /** The store after serving `events` in order. */
  function Run(store: OtpStore, events: seq<Timed>): OtpStore
    requires ValidDraws(events)
    decreases |events|
  {
    if events == [] then store
    else Run(Step(store, events[0]), events[1..])
  }

  /** Every stored code is exactly six decimal digits. */
  predicate WellFormedStore(store: OtpStore)
  {
    forall i :: 0 <= i < |store| ==> |store[i].otp| == OTP_LENGTH && AllDigits(store[i].otp)
  }

  /** Serving any requests and verifications only appends records, each with
      a six-digit code: earlier records are never overwritten. */
  lemma {:induction false} RunAppendOnly(store: OtpStore, events: seq<Timed>)
    requires ValidDraws(events)
    requires WellFormedStore(store)
    ensures |store| <= |Run(store, events)|
    ensures Run(store, events)[..|store|] == store
    ensures WellFormedStore(Run(store, events))
    decreases |events|
  {
    if events != [] {
      var next := Step(store, events[0]);
      assert next[..|store|] == store;
      assert WellFormedStore(next);
      RunAppendOnly(next, events[1..]);
    }
  }

  /** Verifications never change the store. */
  lemma {:induction false} VerifiesLeaveStore(store: OtpStore, events: seq<Timed>)
    requires ValidDraws(events)
    requires forall i :: 0 <= i < |events| ==> events[i].event.Verify?
    ensures Run(store, events) == store
    decreases |events|
  {
    if events != [] {
      VerifiesLeaveStore(store, events[1..]);
    }
  }

  /** A successful verify does not consume the code: after any further
      verifications, the same code still succeeds at any instant up to the
      expiry. */
  lemma CodeNotConsumed(store: OtpStore, events: seq<Timed>, email: Option<string>, otp: Option<string>,
                        first: int, later: int, profile: Student, jwtSecret: Option<string>)
    requires ValidDraws(events)
    requires forall i :: 0 <= i < |events| ==> events[i].event.Verify?
    requires VerifyOtp(email, otp, store, first, true, Some(profile), jwtSecret).reply.LoginOk?
    requires later <= LatestFor(store, email.value).value.otpExpires
    ensures VerifyOtp(email, otp, Run(store, events), later, true, Some(profile), jwtSecret).reply.LoginOk?
  {
    VerifiesLeaveStore(store, events);
  }

  /** The record a request appends becomes the newest for its email. */
  lemma AppendedIsLatest(store: OtpStore, record: OtpRecord)
    ensures LatestFor(store + [record], record.email) == Some(record)
  {
  }

  /** A successful request followed by a verification with the mailed code,
      no later than its expiry, logs the student in with `{id, email, name}`. */
  lemma RequestThenVerify(email: string, student: Student, draw: nat, now: int, ttlMinutes: int,
                          store: OtpStore, later: int, profile: Student, jwtSecret: string)
    requires email != "" && jwtSecret != ""
    requires draw < Pow10(OTP_LENGTH)
    requires later <= now + ttlMinutes * MS_PER_MINUTE
    ensures var req := RequestOtp(Some(email), Some(student), draw, now, Some(ttlMinutes), true, true, store);
            var code := GenerateOtp(OTP_LENGTH, draw);
            req.reply == OtpSent
            && req.calls[|req.calls| - 1] == SendOtpMail(email, code)
            && VerifyOtp(Some(email), Some(code), req.store, later, true, Some(profile), Some(jwtSecret)).reply
               == LoginOk(SessionClaims(profile), TOKEN_LIFETIME, profile)
  {
    var req := RequestOtp(Some(email), Some(student), draw, now, Some(ttlMinutes), true, true, store);
    AppendedIsLatest(store, req.store[|store|]);
    assert req.store == store + [req.store[|store|]];
  }

  /** A second request supersedes the first: while the new code is valid,
      the old code is rejected as invalid (the draws differ). */
  lemma SupersededCodeRejected(email: string, student: Student, d1: nat, d2: nat, t1: int, t2: int,
                               ttlMinutes: int, store: OtpStore, later: int, profile: Option<Student>,
                               jwtSecret: Option<string>)
    requires email != ""
    requires d1 < Pow10(OTP_LENGTH) && d2 < Pow10(OTP_LENGTH) && d1 != d2
    requires later <= t2 + ttlMinutes * MS_PER_MINUTE
    ensures var s1 := RequestOtp(Some(email), Some(student), d1, t1, Some(ttlMinutes), true, true, store).store;
            var s2 := RequestOtp(Some(email), Some(student), d2, t2, Some(ttlMinutes), true, true, s1).store;
            VerifyOtp(Some(email), Some(GenerateOtp(OTP_LENGTH, d1)), s2, later, true, profile, jwtSecret).reply
            == InvalidOtp
  {
    var s1 := RequestOtp(Some(email), Some(student), d1, t1, Some(ttlMinutes), true, true, store).store;
    var s2 := RequestOtp(Some(email), Some(student), d2, t2, Some(ttlMinutes), true, true, s1).store;
    AppendedIsLatest(s1, s2[|s1|]);
    assert s2 == s1 + [s2[|s1|]];
    if GenerateOtp(OTP_LENGTH, d1) == GenerateOtp(OTP_LENGTH, d2) {
      GenerateOtpInjective(OTP_LENGTH, d1, d2);
    }
  }
}

=== FILE: payment.dfy ===
/** Payment-gateway glue (controllers/paymentController.js): order creation
    and the HMAC check of a payment confirmation. The gateway and HMAC-SHA256
    (RFC 2104 over SHA-256, hex digest) are oracles passed in. */
module Payment {
  import opened Js
  import opened Decimal

  const PAISE_PER_RUPEE: int := 100
  const CURRENCY: string := "INR"
  const RECEIPT_PREFIX: string := "receipt_"
  /** Separator between the order id and the payment id in the signed message. */
  const SEPARATOR: char := '|'

  /** The options handed to `razorpay.orders.create`. */
  datatype OrderOptions = OrderOptions(amount: int, currency: string, receipt: string)

  /** The gateway's order object, returned to the client verbatim. */
  datatype GatewayOrder = GatewayOrder(id: string, amount: int, currency: string, receipt: string)

  datatype CreateReply =
    | OrderCreated(order: GatewayOrder)  // 200
    | AmountRequired                     // 400 "Amount is required"
    | GatewayFailed(message: string)     // 500, the gateway's message
  {
    function Status(): int
    {
      match this
      case OrderCreated(_) => 200
      case AmountRequired => 400
      case GatewayFailed(_) => 500
    }
  }

  /** The reply and the option sets sent to the gateway. */
  datatype CreateOutcome = CreateOutcome(reply: CreateReply, calls: seq<OrderOptions>)

  /** The largest time value `Date.now()` can return: 10^8 days in
      milliseconds (section 21.4.1.1 of ECMA-262), a safe integer. */
  const MAX_TIME_VALUE: nat := 8_640_000_000_000_000

  /** `"receipt_" + Date.now()`. */
  function Receipt(now: nat): string
    requires now <= MAX_TIME_VALUE
  {
    RECEIPT_PREFIX + ToDecimal(now)
  }

  /** `createOrder`. `amount` is the body's amount in whole rupees, `now` the
      clock in milliseconds, `gateway` the order API. */
  function CreateOrder(amount: Option<int>, now: nat, gateway: OrderOptions -> Result<GatewayOrder>): (out: CreateOutcome)
    requires now <= MAX_TIME_VALUE
    // A missing or zero amount is refused before the gateway is called.
    ensures !TruthyInt(amount) ==> out == CreateOutcome(AmountRequired, [])
    // Otherwise exactly one order is requested, in paise, in rupees, with a
    // receipt whose digits read back as the clock.
    ensures TruthyInt(amount) ==>
              |out.calls| == 1
              && out.calls[0].amount == amount.value * PAISE_PER_RUPEE
              && out.calls[0].currency == CURRENCY
              && StartsWith(out.calls[0].receipt, RECEIPT_PREFIX)
              && AllDigits(out.calls[0].receipt[|RECEIPT_PREFIX|..])
              && ValueOf(out.calls[0].receipt[|RECEIPT_PREFIX|..]) == now
              && (|out.calls[0].receipt| > |RECEIPT_PREFIX| + 1 ==> out.calls[0].receipt[|RECEIPT_PREFIX|] != '0')
    ensures out.reply.OrderCreated? <==> TruthyInt(amount) && gateway(out.calls[0]).Ok?
    // Any gateway error is answered 500 with the gateway's message.
    ensures out.reply.GatewayFailed? <==> TruthyInt(amount) && gateway(out.calls[0]).Err?
    ensures out.reply.OrderCreated? ==> out.reply.order == gateway(out.calls[0]).value
    ensures out.reply.GatewayFailed? ==> out.reply.message == gateway(out.calls[0]).message
  {
    if !TruthyInt(amount) then CreateOutcome(AmountRequired, [])
    else
      var options := OrderOptions(amount.value * PAISE_PER_RUPEE, CURRENCY, Receipt(now));
      assert options.receipt[|RECEIPT_PREFIX|..] == ToDecimal(now);
      match gateway(options)
      case Ok(order) => CreateOutcome(OrderCreated(order), [options])
      case Err(message) => CreateOutcome(GatewayFailed(message), [options])
  }

  /** Only a missing amount or 0 is refused: a negative amount reaches the
      gateway as a negative number of paise. */
  lemma NegativeAmountReachesGateway(now: nat, gateway: OrderOptions -> Result<GatewayOrder>)
    requires now <= MAX_TIME_VALUE
    ensures CreateOrder(Some(-5), now, gateway).calls[0].amount == -500
  {
  }

  /** `razorpay_order_id + "|" + razorpay_payment_id`; an absent id reads as
      "undefined". */
  function SignedMessage(orderId: Option<string>, paymentId: Option<string>): string
  {
    Str(orderId) + [SEPARATOR] + Str(paymentId)
  }

  datatype VerifyReply =
    | PaymentVerified      // 200 "Payment verified successfully"
    | InvalidSignature     // 400 "Invalid signature"
    | KeyMissing           // 500: `createHmac` throws without a key
  {
    function Status(): int
    {
      match this
      case PaymentVerified => 200
      case InvalidSignature => 400
      case KeyMissing => 500
    }
  }

  /** `verifyPayment`. `secret` is `RAZORPAY_KEY_SECRET`; `hmac(key, message)`
      is the hex HMAC-SHA256 digest. */
  function VerifyPayment(orderId: Option<string>, paymentId: Option<string>, signature: Option<string>,
                         secret: Option<string>, hmac: (string, string) -> string): (r: VerifyReply)
    ensures secret.None? <==> r == KeyMissing
    ensures secret.Some? ==>
              (r == PaymentVerified <==> signature == Some(hmac(secret.value, SignedMessage(orderId, paymentId))))
  {
    match secret
    case None => KeyMissing
    case Some(key) =>
      if Some(hmac(key, SignedMessage(orderId, paymentId))) == signature then PaymentVerified
      else InvalidSignature
  }

  predicate NoSeparator(s: string)
  {
    forall i :: 0 <= i < |s| ==> s[i] != SEPARATOR
  }

  /** For ids without a '|', the signed message determines both ids. */
  lemma SignedMessageInjective(o1: string, p1: string, o2: string, p2: string)
    requires NoSeparator(o1) && NoSeparator(o2)
    requires SignedMessage(Some(o1), Some(p1)) == SignedMessage(Some(o2), Some(p2))
    ensures o1 == o2 && p1 == p2
  {
    var m := SignedMessage(Some(o1), Some(p1));
    assert m[|o1|] == SEPARATOR && m[|o2|] == SEPARATOR;
    assert o1 == m[..|o1|] == o2;
    assert p1 == m[|o1| + 1..] == p2;
  }

  /** Without that restriction the message is ambiguous: one signature
      verifies two different (order, payment) pairs. */
  lemma SeparatorAmbiguity(signature: Option<string>, secret: Option<string>, hmac: (string, string) -> string)
    ensures VerifyPayment(Some("a|b"), Some("c"), signature, secret, hmac)
            == VerifyPayment(Some("a"), Some("b|c"), signature, secret, hmac)
  {
    assert SignedMessage(Some("a|b"), Some("c")) == SignedMessage(Some("a"), Some("b|c"));
  }
}

=== FILE: server.dfy ===
/** Application-level middleware of server.js: the CORS origin callback, the
    `/api/` and general 404 fallbacks, and the global error handler. */
module Server {
  import opened Js

  /** The Vite dev server, used when `FRONTEND_URL` is unset. */
  const DEFAULT_FRONTEND_URL: string := "http://localhost:5173"
  const SECOND_ALLOWED_ORIGIN: string := "http://localhost:3001"
  const CORS_ERROR_MESSAGE: string := "CORS not allowed from this origin"
  /** The text the error handler looks for. */
  const CORS_MARKER: string := "CORS not allowed"
  const API_PREFIX: string := "/api/"
  const DEVELOPMENT: string := "development"

  /** A JavaScript `Error` as the error handler reads it. */
  datatype JsError = JsError(message: string, status: Option<int>, stack: string)

  /** `allowedOrigins`: `FRONTEND_URL` (or the Vite default) and the second origin. */
  function AllowedOrigins(frontendUrl: Option<string>): seq<string>
  {
    [OrElse(frontendUrl, DEFAULT_FRONTEND_URL), SECOND_ALLOWED_ORIGIN]
  }

  /** `callback(null, true)` or `callback(new Error(...))`. */
  datatype CorsDecision = AllowOrigin | BlockOrigin(error: JsError)

  /** The `origin` callback given to `cors`. */
  function CorsOrigin(origin: Option<string>, frontendUrl: Option<string>): (d: CorsDecision)
    // Requests without an Origin header (same-origin, curl, server-to-server) pass.
    ensures !Truthy(origin) ==> d == AllowOrigin
    ensures d == AllowOrigin <==>
              !Truthy(origin)
              || origin.value == SECOND_ALLOWED_ORIGIN
              || (Truthy(frontendUrl) && origin.value == frontendUrl.value)
              || (!Truthy(frontendUrl) && origin.value == DEFAULT_FRONTEND_URL)
    ensures d.BlockOrigin? ==> d.error.message == CORS_ERROR_MESSAGE && d.error.status.None?
  {
    if !Truthy(origin) || origin.value in AllowedOrigins(frontendUrl) then AllowOrigin
    else BlockOrigin(JsError(CORS_ERROR_MESSAGE, None, "Error: " + CORS_ERROR_MESSAGE))
  }

  datatype ErrorReply =
    | CorsViolation                                                  // 403 "CORS policy violation"
    | Failure(status: int, error: string, stack: Option<string>)    // `success: false`
  {
    function Status(): int
    {
      match this
      case CorsViolation => 403
      case Failure(status, _, _) => status
    }
  }

  /** The global error handler. `nodeEnv` is `NODE_ENV`. */
  function HandleError(e: JsError, nodeEnv: Option<string>): (r: ErrorReply)
    ensures Includes(e.message, CORS_MARKER) <==> r == CorsViolation
    // Other errors carry their own status, or 500 when it is absent or 0.
    ensures !Includes(e.message, CORS_MARKER) ==>
              r.Status() == (if TruthyInt(e.status) then e.status.value else 500)
              && r.error == (if e.message != "" then e.message else "Internal server error")
    // The stack is exposed only in development.
    ensures r.Failure? ==> (r.stack.Some? <==> nodeEnv == Some(DEVELOPMENT))
    ensures r.Failure? && r.stack.Some? ==> r.stack.value == e.stack
  {
    if Includes(e.message, CORS_MARKER) then CorsViolation
    else
      Failure(if TruthyInt(e.status) then e.status.value else 500,
              if e.message != "" then e.message else "Internal server error",
              if nodeEnv == Some(DEVELOPMENT) then Some(e.stack) else None)
  }

  /** A rejected origin reaches the error handler and is answered with 403. */
  lemma BlockedOriginGets403(origin: Option<string>, frontendUrl: Option<string>, nodeEnv: Option<string>)
    requires CorsOrigin(origin, frontendUrl).BlockOrigin?
    ensures HandleError(CorsOrigin(origin, frontendUrl).error, nodeEnv).Status() == 403
  {
    PrefixIncluded(CORS_ERROR_MESSAGE, CORS_MARKER);
  }

  /** ASCII lower-casing: Express matches mount paths case-insensitively. */
  function ToLower(s: string): (r: string)
    ensures |r| == |s|
  {
    if s == [] then []
    else [if 'A' <= s[0] <= 'Z' then (s[0] as int + 32) as char else s[0]] + ToLower(s[1..])
  }

  /** The path is matched by the mount pattern "/api/" followed by anything. */
  predicate UnderApi(path: string)
  {
    StartsWith(ToLower(path), API_PREFIX)
  }

  /** The reply to a request no route handled. */
  datatype NotFound = ApiNotFound(requestedUrl: string, verb: string)  // "API endpoint not found"
                    | EndpointNotFound(requestedUrl: string, verb: string)  // "Endpoint not found"
  {
    function Status(): int
    {
      404
    }
  }

  /** The two fallbacks in registration order: `/api/` first, then the
      catch-all. */
  function Unmatched(verb: string, path: string): (r: NotFound)
    ensures r.ApiNotFound? <==> UnderApi(path)
    ensures r.requestedUrl == path && r.verb == verb
  {
    if UnderApi(path) then ApiNotFound(path, verb) else EndpointNotFound(path, verb)
  }

  /** Every API path, in any letter case, gets the API-specific 404. */
  lemma ApiPathsGetApiNotFound(verb: string, rest: string)
    ensures Unmatched(verb, API_PREFIX + rest).ApiNotFound?
    ensures Unmatched(verb, "/API/" + rest).ApiNotFound?
  {
    LowerPrefix(API_PREFIX, rest);
    LowerPrefix("/API/", rest);
  }

  /** Lower-casing twice changes nothing more. */
  lemma {:induction false} ToLowerIdempotent(s: string)
    ensures ToLower(ToLower(s)) == ToLower(s)
  {
    if s != [] {
      ToLowerIdempotent(s[1..]);
      assert ToLower(s)[1..] == ToLower(s[1..]);
    }
  }

  /** The fallback depends only on the path's letters, not their case:
      a path and its lower-cased form get the same 404. */
  lemma MatchIgnoresCase(verb: string, path: string)
    ensures Unmatched(verb, path).ApiNotFound? == Unmatched(verb, ToLower(path)).ApiNotFound?
  {
    ToLowerIdempotent(path);
  }

  lemma {:induction false} LowerPrefix(a: string, b: string)
    ensures ToLower(a + b) == ToLower(a) + ToLower(b)
  {
    if a == [] {
      assert a + b == b;
    } else {
      assert (a + b)[0] == a[0];
      assert (a + b)[1..] == a[1..] + b;
      LowerPrefix(a[1..], b);
    }
  }
}

=== FILE: session.dfy ===
/** How the token issued at OTP login meets the bearer-token gates: the
    login signs `{id, email, name}`, while every gate dispatches on `type`
    (and looks the student up by `studentId`), so the gates refuse it. */
module Session {
  import opened Js
  import opened Jwt
  import Otp
  import Auth

  /** The claim set of an OTP login carries neither `type` nor `studentId`. */
  lemma SessionClaimsUntyped(s: Otp.Student)
    ensures "type" !in Otp.SessionClaims(s) && "studentId" !in Otp.SessionClaims(s)
    ensures Otp.SessionClaims(s).Keys == {"id", "email", "name"}
  {
  }

  /** A header carrying a token that decodes to the OTP login's claims is
      refused with 403 by all three gates, before any account lookup. */
  lemma LoginTokenRefusedByGates(header: Option<string>, jwtSecret: Option<string>, verify: Auth.Verifier,
                                 findAdmin: Auth.AdminLookup, findStudent: Auth.StudentLookup,
                                 s: Otp.Student)
    requires Auth.Decoded(header, jwtSecret, verify) == Some(Otp.SessionClaims(s))
    ensures Auth.AuthenticateStudent(header, jwtSecret, verify, findStudent)
            == Auth.AuthOutcome(Auth.Deny(Auth.FORBIDDEN, Auth.STUDENT_REQUIRED),
                                [Auth.VerifyToken(Auth.BearerToken(header).value, Auth.SigningKey(jwtSecret))])
    ensures Auth.Authenticate(header, jwtSecret, verify, findAdmin, findStudent)
            == Auth.AuthOutcome(Auth.Deny(Auth.FORBIDDEN, Auth.UNKNOWN_TYPE),
                                [Auth.VerifyToken(Auth.BearerToken(header).value, Auth.SigningKey(jwtSecret))])
    ensures Auth.AuthenticateAdmin(header, jwtSecret, verify, findAdmin).verdict
            == Auth.Deny(Auth.FORBIDDEN, Auth.ADMIN_REQUIRED)
  {
    SessionClaimsUntyped(s);
    assert Auth.TypeClaim(header, jwtSecret, verify) == None;
  }

  /** End to end: presenting the token of a successful OTP login as
      "Bearer <token>" to a student-only route is refused with 403. The login
      signs with `JWT_SECRET`, which it requires, and the gate verifies with
      the same key. `sign` stands for `jwt.sign` and `verify` for an
      idealised `jwt.verify` that decodes exactly what `sign` produced with
      that key; the real one also adds `iat` and `exp` and fails once the
      hour is over. Either way `type` is absent, so the refusal stands. */
  lemma OtpLoginCannotPassStudentGate(email: Option<string>, otp: Option<string>, store: Otp.OtpStore,
                                      now: int, fetchOk: bool, profile: Option<Otp.Student>,
                                      jwtSecret: Option<string>,
                                      sign: (Claims, string) -> string, verify: Auth.Verifier,
                                      findStudent: Auth.StudentLookup)
    requires Otp.VerifyOtp(email, otp, store, now, fetchOk, profile, jwtSecret).reply.LoginOk?
    requires forall c, k :: verify(sign(c, k), k) == Some(c)
    ensures var claims := Otp.VerifyOtp(email, otp, store, now, fetchOk, profile, jwtSecret).reply.claims;
            Auth.AuthenticateStudent(Some(Auth.BEARER_PREFIX + sign(claims, jwtSecret.value)), jwtSecret, verify,
                                     findStudent).verdict
            == Auth.Deny(Auth.FORBIDDEN, Auth.STUDENT_REQUIRED)
  {
    var claims := Otp.VerifyOtp(email, otp, store, now, fetchOk, profile, jwtSecret).reply.claims;
    var token := sign(claims, jwtSecret.value);
    var header := Some(Auth.BEARER_PREFIX + token);
    Auth.BearerRoundTrip(token);
    assert Auth.Decoded(header, jwtSecret, verify) == Some(Otp.SessionClaims(profile.value));
    LoginTokenRefusedByGates(header, jwtSecret, verify, c => None, findStudent, profile.value);
  }

  /** The claim set the student gate expects: the login's claims plus
      `type: "student"` and `studentId`. */
  function StudentClaims(s: Otp.Student): Claims
  {
    Otp.SessionClaims(s)["type" := "student"]["studentId" := s.id]
  }

  /** With those claims, a login token opens the student gate for an active
      student, attaching exactly that student's row as `req.student`. */
  lemma StudentClaimsPassStudentGate(s: Otp.Student, token: string, jwtSecret: Option<string>,
                                     verify: Auth.Verifier, findStudent: Auth.StudentLookup,
                                     row: Auth.StudentRow)
    requires verify(token, Auth.SigningKey(jwtSecret)) == Some(StudentClaims(s))
    requires findStudent(Some(s.id)) == Some(row) && row.status == Auth.ACTIVE
    ensures Auth.AuthenticateStudent(Some(Auth.BEARER_PREFIX + token), jwtSecret, verify, findStudent).verdict
            == Auth.Next(Auth.Attached(None, Some(Auth.ToStudentContext(row)), None))
  {
    Auth.BearerRoundTrip(token);
    assert Claim(StudentClaims(s), "type") == Some("student");
    assert Claim(StudentClaims(s), "studentId") == Some(s.id);
  }
}
